=== FILE: README.md ===
# Expense bot core in Dafny

This project models the data-handling core of a Telegram expense-tracking bot.

Users register, either through a conversation or through the older polling bot. They keep per-user expense categories, with a quota on active ones. They record expenses and list the five most recent. They can link a Google spreadsheet.

The database is modelled as an immutable `Db` value. It holds three tables and the next primary key of each. Every service function returns its answer together with the new `Db`.

The bot's button data is modelled as strings built by small encoders. The bot's conversations are modelled as step functions over a stage and a `user_data` map.

The modules follow the program's files:

| module | file | contents |
|---|---|---|
| `Base` | — | `Option`, `Result` (a value or a raised error), `Store` (a healthy session or one whose query raises) |
| `Text` | — | ASCII lower-casing, `str.split` and `str.join`, `str(int)` and `int(str)`, with their round trips |
| `Query` | — | `.first()` over a table, counting, removing a row |
| `Models` | app/models.py | `User`, `Category`, `Expense`, `Db`, and the key invariants of the tables |
| `Categories` | app/categories.py | the category service |
| `LegacyCategories` | categories.py | the earlier category service, with its quota of 10 and its `None` on database errors |
| `Expenses` | app/expenses.py | adding, deleting and listing expenses |
| `Users` | app/users.py | looking up, creating and deleting users |
| `Sheets` | app/gsheet.py | `extract_spreadsheet_id` |
| `Callbacks` | bot.py | the callback-data encoders and `data.split('_')[1]` |
| `Handlers` | bot.py | the callback routing table of `run_bot`, and the expense-delete and category-status handlers |
| `Forms` | bot.py | the expense, registration and spreadsheet conversations |
| `PollingBot` | main.py | `USER_STATE`, the three-message registration, and the callback dispatch table |

## Model

| member | source | states |
|---|---|---|
| Query.First | app/categories.py:322-330 | `.first()` gives the earliest row satisfying the filter, and `None` exactly when no row satisfies it |
| Query.CountAppend | app/categories.py:168-170 | `.count()` of a table with one more row grows by one exactly when that row matches |
| Text.JoinSplit | app/gsheet.py:36 | joining the pieces of `split(sep)` with `sep` gives back the string |
| Text.SplitJoin | app/gsheet.py:36 | splitting a join of separator-free pieces gives back the pieces |
| Text.IntStringRoundTrip | bot.py:128 | `int(str(n)) == n` for every integer |
| Text.IntToStringInjective | main.py:50 | different integers have different decimal texts |
| Categories.CountActiveCategories | app/categories.py:152-180 | the count is zero exactly when the user has no active category, and never exceeds the table size |
| Categories.ActiveCountIsActiveListing | app/categories.py:168-170 | the active count equals the length of the user's active listing |
| Categories.GetCategories | app/categories.py:183-221 | a name is listed exactly when a row of the user with the requested status carries it (1 active, 2 inactive, anything else every row) |
| Categories.ListingsPartition | app/categories.py:203-211 | the active and inactive listings together are as long as the full listing |
| Categories.OtherKindsListAll | app/categories.py:203-208 | any kind other than 1 and 2 lists every row of the user |
| Categories.GetCategoriesAndId | app/categories.py:224-262 | a (name, id) pair is listed exactly when a row of the user with the requested status has that name and id |
| Categories.PairsCarryNames | app/categories.py:244-252 | the pairs listing has the same length and the same names, in order, as the names listing |
| Categories.GenerateCategoriesMessage | app/categories.py:265-302 | "No categories found." exactly when both shown sections are empty; otherwise the text opens with the title of the first non-empty section |
| Categories.MessageSplitsIntoNames | app/categories.py:283-298 | when no name holds a line break, the message split on line breaks gives the titles, the names in table order, and the blank separator lines |
| Categories.MessageIsJoinOfLines | app/categories.py:283-298 | a non-empty message is its lines joined by line breaks |
| Categories.MessageIsJoin | app/categories.py:283-298 | the message, including "No categories found.", is exactly its lines joined by line breaks, whatever characters the names hold |
| Categories.GetCategoryName | app/categories.py:305-337 | the name of the user's category with that id, or "Category not found" when the user has none |
| Categories.CategoryNameOfKnownId | app/categories.py:322-330 | with distinct ids, the name looked up by a row's id is that row's name |
| Categories.AddCategory | app/categories.py:18-64 | The call raises the quota error with the database unchanged when the user already has 20 active categories, otherwise raises the duplicate error with the database unchanged when one of the user's names equals the new one ignoring case, and otherwise appends an active row with the next id and returns True. |
| Categories.AddedCategoryIsListed | app/categories.py:51-54 | an added name appears in the user's active listing |
| Categories.AddCategoryPreservesInvariants | app/categories.py:38-54 | adding keeps the table keys valid, keeps names unique per user ignoring case, and keeps every user at 20 active categories or fewer |
| Categories.DeleteCategory | app/categories.py:70-105 | deletes a row of the user with that name, ignoring case, exactly when one exists; otherwise reports "Category not found" and changes nothing; other users' rows and the other tables stay |
| Categories.DeleteCategoryPreservesInvariants | app/categories.py:87-98 | deleting keeps the keys valid and the names unique |
| Categories.AddThenDeleteCategory | app/categories.py:18-105 | deleting a just-added category gives back the original table; only the id counter has moved |
| Categories.ChangeCategoryStatus | app/categories.py:110-149 | True exactly when the user owns a category with that id; then only the first such row's `active` flag changes, otherwise nothing changes |
| Categories.ChangeStatusPreservesInvariants | app/categories.py:128-142 | a status change keeps keys and unique names |
| Categories.DeactivateThenReactivate | app/categories.py:110-149 | deactivating and then reactivating an active category gives back the original database |
| Categories.ReactivationIgnoresQuota | app/categories.py:128-142 | reactivation succeeds and raises the active count by one whatever the count was, since the 20 quota is checked only when adding |
| LegacyCategories.CountActiveCategories | categories.py:114-125 | the user's active rows on a healthy session, 0 when the query raises |
| LegacyCategories.AddCategory | categories.py:12-37 | the count runs in its own session and reads 0 when that session fails; at 10 or more counted categories the name is refused; otherwise a failing name query gives `None` and no change, a duplicate name ignoring case is refused, and a new name is added as an active row and returned |
| LegacyCategories.FailedCountSkipsQuota | categories.py:12-30 | when the count's session fails and the function's own session works, a new name is added however many categories are active |
| LegacyCategories.AddAgreesBelowLegacyQuota | categories.py:15-30 | below 10 active categories the two revisions add and refuse alike and produce the same database |
| LegacyCategories.QuotaDiffersBetweenRevisions | categories.py:15-19 | from 10 to 19 active categories the earlier revision refuses a new name that the later one accepts |
| LegacyCategories.DeleteCategory | categories.py:42-61 | deletes the first row of the user with that name, ignoring case, exactly when one exists; a raising session gives the error text and no change |
| LegacyCategories.DeleteAgreesAcrossRevisions | categories.py:42-61 | on a healthy session both revisions delete identically |
| LegacyCategories.SetActiveByName | categories.py:69-81 | sets the flag of the first row of the user with that name, and is `None` exactly when there is none |
| LegacyCategories.DeactivateCategory | categories.py:66-85 | deactivates a category found by name, reports "Category not found" otherwise, and gives the error text with no change on a raising session |
| LegacyCategories.ReactivateCategory | categories.py:90-109 | reactivates a category found by name, reports "Category not found" otherwise, and gives the error text with no change on a raising session |
| LegacyCategories.DeactivateThenReactivateByName | categories.py:66-109 | deactivating and then reactivating an active category by name gives back the original database |
| Expenses.AddExpense | app/expenses.py:10-23 | appends a row with the next id, the given amount, category, user and date, and the clock as creation time, and returns it; a raising session gives nothing and no change |
| Expenses.AddExpensePreservesKeys | app/expenses.py:12-17 | adding keeps the expense keys distinct and below the counter |
| Expenses.DeleteExpense | app/expenses.py:25-43 | deletes the user's expense with that id exactly when one exists; otherwise reports "Expense not found or does not belong to the user." and changes nothing; the result is never empty |
| Expenses.ForeignExpenseIsNotFound | app/expenses.py:29-37 | another user's expense cannot be deleted |
| Expenses.DeleteExpensePreservesKeys | app/expenses.py:29-34 | deleting keeps the expense keys valid |
| Expenses.AddThenDeleteExpense | app/expenses.py:10-44 | deleting a just-added expense gives back the original table |
| Expenses.UserJoin | app/expenses.py:51-54 | the inner join holds exactly the user's expenses paired with the name of every category carrying their category id |
| Expenses.SortByRecency | app/expenses.py:55 | a permutation of the rows, newest first |
| Expenses.LastFiveJoined | app/expenses.py:51-58 | at most five joined rows, exactly five when five exist, newest first, drawn from the join, and no left-out row is newer than a kept one |
| Expenses.UnjoinableExpenseOmitted | app/expenses.py:52-53 | an expense whose category id matches no category is never listed |
| Expenses.RetrieveLast5Expenses | app/expenses.py:47-62 | each line is (id, amount, category name) of the corresponding recent joined row; nothing when the session raises |
| Users.GetUserId | app/users.py:17-37 | the id of a row with that Telegram id, and `None` exactly when there is none |
| Users.IsUserRegistered | app/users.py:40-70 | true exactly when a row has that Telegram id, which is exactly when `get_user_id` finds one |
| Users.CreateUser | app/users.py:73-108 | a registered Telegram id raises; a missing chat id or a chat id or email already taken raises the integrity error; otherwise a row with the next id is appended and returned; a raise changes nothing |
| Users.CreateUserPreservesValid | app/users.py:92-101 | creation keeps keys valid and the Telegram id, chat id and email unique |
| Users.CreatedUserIsFound | app/users.py:17-37 | after a creation, `get_user_id` finds the new row's id |
| Users.DeleteUser | app/users.py:111-143 | deletes a row with that id exactly when one exists, and leaves categories and expenses untouched |
| Users.CreateThenDeleteUser | app/users.py:73-143 | deleting a just-created user gives back the original table |
| Sheets.LongestIndex | app/gsheet.py:36 | `max(parts, key=len)`: the chosen piece is at least as long as every piece and strictly longer than every earlier one |
| Sheets.ExtractSpreadsheetId | app/gsheet.py:33-42 | input without the Sheets marker comes back unchanged; a link gives its earliest longest '/'-separated segment |
| Sheets.ExtractIsIdempotent | app/gsheet.py:33-42 | extracting from an extracted id gives the same id |
| Sheets.LinkYieldsLongestSegment | app/gsheet.py:34-36 | a link built from '/'-free segments yields its strictly longest segment |
| Callbacks.Argument | bot.py:128 | `split('_')[1]` fails exactly when the data has no underscore, and never holds one |
| Callbacks.ArgumentOfEncode | bot.py:105 | the argument comes back from `tag_arg` exactly when it holds no underscore |
| Callbacks.ExpenseDeleteRoundTrip | bot.py:282 | the "Delete Expense" button decodes to its expense id |
| Callbacks.CategoryStatusRoundTrip | bot.py:407 | the deactivation and reactivation buttons decode to their category id |
| Callbacks.ExpenseCategoryRoundTrip | bot.py:178 | the category button gives back the id text the form stores |
| Callbacks.DateRoundTrip | bot.py:230 | a date button gives back its ISO date |
| Handlers.Route | bot.py:681-764 | a press goes to the first registered handler whose pattern accepts it, and is dropped exactly when none does |
| Handlers.DeleteExpenseButtonRoute | bot.py:681 | the delete button reaches the expense-delete handler |
| Handlers.DeactivateButtonRoute | bot.py:750-753 | a deactivation button reaches the deactivation handler, not the listing |
| Handlers.ReactivateButtonRoute | bot.py:757-760 | a reactivation button reaches the reactivation handler, not the listing |
| Handlers.DeactivationListRoute | bot.py:750-753 | data starting "deactivate_category" reaches the listing, although the later deactivation pattern also accepts it |
| Handlers.ReactivationListRoute | bot.py:757-760 | data starting "reactivate_category" reaches the listing, although the later reactivation pattern also accepts it |
| Handlers.HandleExpenseDelete | bot.py:120-139 | as written: any decodable press deletes through the service and reports success; data without the prefix ends in the unbound-variable crash |
| Handlers.HandleExpenseDeleteCorrected | bot.py:120-139 | success is reported exactly when the user owns the expense; a failure leaves the database unchanged |
| Handlers.ForeignExpenseReportedDeleted | bot.py:129-134 | as written, pressing delete on another user's expense reports success while nothing is deleted |
| Handlers.ForeignExpenseReportedFailed | bot.py:129-134 | with the corrected test the same press reports failure |
| Handlers.HandleCategoryStatus | bot.py:424-447 | a decodable press changes the status through the service and reports success exactly when the user owns the category; "cancel" reports cancellation, although no registered pattern lets "cancel" reach this handler (see `Handlers.CancelIsDropped`); other data changes nothing |
| Handlers.CancelIsDropped | bot.py:750-764 | no registered pattern accepts "cancel", so the Cancel button of the category lists reaches no handler while no conversation is running |
| Handlers.DeactivationButtonDeactivates | bot.py:396-447 | a button built from an active listing is routed to deactivation, reports success and leaves that category inactive |
| Handlers.ReactivationButtonReactivates | bot.py:450-501 | a button built from an inactive listing is routed to reactivation, reports success and leaves that category active |
| Forms.ExpenseStep | bot.py:147-295 | the expense form: only the date step calls `add_expense`, with the amount and description read from `user_data`; "cancel" empties `user_data` and ends the form |
| Forms.ExpenseStepAsWritten | bot.py:217-222 | as written, the description is stored under "expense_desription", so the key the last step reads keeps its old value |
| Forms.ExpenseStepCorrected | bot.py:217-222 | corrected, the description is stored under the key the last step reads |
| Forms.ExpenseEntryRun | bot.py:147-295 | the five presses and messages of an entry end the form with one call carrying the amount, the category id text, the date and whatever the description key holds |
| Forms.ExpenseDescriptionLost | bot.py:219-272 | as written, a complete entry hands `add_expense` no description |
| Forms.ExpenseDescriptionKept | bot.py:219-272 | corrected, the typed description reaches `add_expense` |
| Forms.RegistrationStep | bot.py:525-598 | the database changes only at the email step, only when the user is created; a second pass with "email" already stored stays at the last-name step |
| Forms.FreshRegistration | bot.py:525-598 | the four steps of a first registration create the user with the typed names and email |
| Forms.SecondRegistrationStalls | bot.py:555-560 | once "email" is in `user_data`, the last-name step overwrites it and asks for the last name again |
| Forms.CompletedRegistrationKeepsEmail | bot.py:587-598 | a completed registration leaves the email in `user_data` and the user registered |
| Forms.SheetStep | bot.py:604-653 | the link step stores the extracted id; a sheet name over 15 characters is asked again; only the name step calls `add_basicinfo` |
| Forms.SheetStepAsWritten | bot.py:637-653 | as written, the sheet name passed on is whatever "sheet_name" held before |
| Forms.SheetStepCorrected | bot.py:637-653 | corrected, the sheet name passed on is the typed text |
| Forms.SheetNameLost | bot.py:638-646 | as written, a complete setup hands `add_basicinfo` no sheet name |
| Forms.SheetNameKept | bot.py:638-646 | corrected, the typed name is handed on |
| PollingBot.GetUserState | main.py:25-27 | the stored stage, `None` for a user with no entry |
| PollingBot.SetUserState | main.py:30-32 | afterwards the user's stage is the one set, and every other entry is unchanged |
| PollingBot.HandleMessage | main.py:37-66 | registered users get the menu; otherwise the stage moves from none to name to surname to registered; a raising registration pops the name but leaves the stage at surname; a missing stored name crashes; only the user's own entries change |
| PollingBot.FailedRegistrationStaysBroken | main.py:55-62 | the handler alone, after a raising registration, leaves the user at ask_surname with no stored name, and run again on that state it crashes and changes nothing |
| PollingBot.PollMessage | main.py:122 | a crash in the handler ends the polling loop, so the restarted bot has an empty `USER_STATE` and the same registry; any other reply keeps the handler's state |
| PollingBot.FailedRegistrationRestarts | main.py:55-62 | after a raising registration and the restart, the same user is still unregistered and their next message is answered with the welcome |
| PollingBot.CrashRestartsEveryRegistration | main.py:17-22 | a crash on one user's message makes every unregistered user start again at the welcome |
| PollingBot.ThreeMessageRegistration | main.py:37-63 | three messages from a new user register them with the second and third texts and leave no state behind |
| PollingBot.OtherUsersUntouched | main.py:46-60 | one user's messages never change another user's stage or stored name |
| PollingBot.CallbackQuery | main.py:81-91 | a press is answered by the handler its data names, and not at all when no handler is registered |
| PollingBot.MenuButtonsAreHandled | main.py:94-99 | each main-menu button reaches its own handler, and the three answers differ |

## Left out

- Telegram I/O is not modelled: sending and editing messages, keyboards, `query.answer()`, `asyncio.sleep` and the `show_cat_setting` follow-up. Only the text a handler would show is modelled.
- Voice messages, the speech and language-model calls (app/whispergpt.py), app/db_utils.py, app/flask_app.py and the Google OAuth and Sheets calls (`add_basicinfo`, `get_google_auth_url`) are not part of this model. Their call sites appear only as the arguments they receive. If `add_basicinfo` or `get_google_auth_url` raises, the conversation stays at the sheet-name step, while `Forms.SheetStep` always ends the form.
- The session layer (commit, rollback, close) is not modelled. A failing query is modelled by the `Store` parameter. app/categories.py and app/users.py re-raise database errors, and the model keeps only the raises they write out themselves. app/expenses.py and the root categories.py swallow errors into `None`, 0 or an error string, and the model gives those answers when the `Store` raises.
- auth.py is not part of this model. It is seen only as the registry of names that `handle_message` writes, and as a flag saying whether `register_user` returns normally or raises. Likewise, root expenses.py and models.py are not part of this model.
- Amounts are integers rather than floats. Dates and `created_at` are opaque inputs, with the clock passed as a parameter.
- `func.lower` is modelled as ASCII lower-casing.
- The chat id, a string column, is modelled as an integer.
- The bot's category-creation conversation (bot.py:353-393) is not modelled. The service it calls, `Categories.AddCategory`, is modelled.
- The error branch of `generate_categories_message` (app/categories.py:300-302) is not modelled, because the pure listing cannot fail.
- Forms.ExpenseStep: the call to `add_expense` is not composed with `Expenses.AddExpense`. `complete_expensecreation` passes a `description` keyword the service does not accept, so in Python the call raises a TypeError that the bare `except` swallows. Only the arguments of the call are modelled.
- The bot hands the Telegram id to services that expect the internal user id. The model keeps the integer it is given and does not translate it.
- Text.ParseInt: `int()` also strips surrounding whitespace and accepts a leading '+' and underscores between digits. The model accepts an optional sign followed by digits only, which covers every string the bot's own encoders produce.
- The `filters.TEXT & ~filters.COMMAND` message filter is modelled as "does not start with '/'".
- Each conversation is modelled with its own `user_data`; in the bot the same dictionary is shared by every conversation of a user.
- The registration conversation's CANCEL state is never entered by any handler and is not modelled.
- Only conversations that are idle are routed through `Handlers.Route`. The precedence a running conversation takes over the later handlers of `run_bot` is not modelled.
- LegacyCategories: categories.py imports the root models.py, whose `Category` has no `active` column. As shipped, its count raises and reads 0, so the 10-category quota never fires, and its deactivate and reactivate set an unmapped attribute, commit nothing and still report success. The LegacyCategories rows, including `LegacyCategories.QuotaDiffersBetweenRevisions`, describe categories.py run against the row shape of app/models.py instead.
- Column types of app/models.py are not modelled. `telegram_id`, `Category.user_id` and `Expense.user_id` are 32-bit `Integer` columns (app/models.py:30, 41, 55), so Telegram ids above 2^31-1 make `create_user` and `add_category` fail, while the model's unbounded `int` accepts them. Names and emails longer than their `String(20)`, `String(50)` and `String(100)` widths (app/models.py:27-29, 42) fail in the database and are accepted by the model. Users.ClashesWith compares emails exactly, while the unique email column under MySQL's default case-insensitive collation also rejects an email that differs only in case. Under InnoDB a failed auto-increment insert still uses up its id, while `Users.CreateUser` and `Expenses.AddExpense` leave the next-id counter unchanged on a raise, so after a failed insert the model predicts a smaller id than the database gives. `.first()` and `.all()` have no ORDER BY, and the model takes rows in insertion order (`Query.First`, `Categories.PairsCarryNames`).
- PollingBot.HandleMessage: the reply to a registered user is modelled as showing the menu, since `echo_all` is not part of this model.
- PollingBot.HandleMessage: a `Crashed` reply describes the handler alone. In the program that exception ends `bot.polling()` and with it `USER_STATE`, which `PollingBot.PollMessage` models as a restart with an empty state; the restart itself, outside the script, is assumed.

## Findings

| source | as written | input that shows it | evidently intended | confidence | as-written member | corrected member |
|---|---|---|---|---|---|---|
| bot.py:129-134 | `if success:` tests the text returned by `delete_expense`, which is never empty | user 1 presses `deleteexpense_7` when expense 7 belongs to user 2: the bot replies "Expense deleted successfully…" and nothing is deleted | report success only when the service answers "Expense deleted successfully." | not executed; high | Handlers.HandleExpenseDelete, Handlers.ForeignExpenseReportedDeleted | Handlers.HandleExpenseDeleteCorrected, Handlers.ForeignExpenseReportedFailed |
| bot.py:219, 272 | the description is stored under "expense_desription" and read from "expense_description" | any complete manual entry with the description "lunch": the final step reads `None` | store and read the description under one key | not executed; high | Forms.ExpenseStepAsWritten, Forms.ExpenseDescriptionLost | Forms.ExpenseStepCorrected, Forms.ExpenseDescriptionKept |
| bot.py:638, 646 | the sheet name is stored under "spreadsheet_name" and read from "sheet_name" | a spreadsheet setup with the sheet name "Raw": `add_basicinfo` receives `None` | read the key just written | not executed; high | Forms.SheetStepAsWritten, Forms.SheetNameLost | Forms.SheetStepCorrected, Forms.SheetNameKept |

=== FILE: base.dfy ===
/** Result shapes shared by the whole model: Python's `None`-or-value and
    the raise-or-return outcome of the repository's service functions. */
module Base {

  /** A value that may be Python's `None`. */
  datatype Option<+T> = None | Some(value: T)

  /** The outcome of a call that either returns a value or raises an
      exception carrying a message (`raise ValueError(message)`). */
  datatype Result<+T> = Ok(value: T) | Raised(message: string)

  /** Whether the database answers a statement or raises. Functions whose
      source catches the exception take this as a parameter. */
  datatype Store = Healthy | Raises(error: string)
}

=== FILE: bot_handlers.dfy ===
/** The callback-query side of bot.py: which registered handler a button
    press reaches, and what the expense-delete and category-status handlers
    do with the database. */
module Handlers {
  import opened Base
  import opened Text
  import opened Query
  import opened Models
  import opened Callbacks
  import Categories
  import Expenses

  /** A `CallbackQueryHandler` pattern as `re.match` applies it: anchored at
      the start; `$` also accepts one trailing newline. */
  datatype Pattern = Prefix(text: string) | Exact(text: string)

  predicate Matches(p: Pattern, data: string) {
    match p
    case Prefix(t) => StartsWith(data, t)
    case Exact(t) => data == t || data == t + "\n"
  }

  /** The callback handlers of `run_bot`; conversation entry points stand
      for their conversation. */
  datatype Target =
    | ExpenseDelete | NewExpense | Registration | Settings | SpreadsheetSetup
    | CategorySettings | ListCategories | NewCategory
    | DeactivationList | CategoryDeactivation | ReactivationList | CategoryReactivation
    | GoBackHome

  /** The table in registration order. `deactivate_category` and
      `reactivate_category` are written without anchors, which `re.match`
      treats as prefixes. */
  const Routes: seq<(Pattern, Target)> := [
    (Prefix("deleteexpense_"), ExpenseDelete),
    (Exact("add_expense"), NewExpense),
    (Exact("register_user"), Registration),
    (Exact("user_settings"), Settings),
    (Exact("connect_gsheet"), SpreadsheetSetup),
    (Exact("manage_categories"), CategorySettings),
    (Exact("list_categories"), ListCategories),
    (Exact("add_category"), NewCategory),
    (Prefix("deactivate_category"), DeactivationList),
    (Prefix("deactivate_"), CategoryDeactivation),
    (Prefix("reactivate_category"), ReactivationList),
    (Prefix("reactivate_"), CategoryReactivation),
    (Exact("go_backhome"), GoBackHome)
  ]

  function RouteMatching(data: string): ((Pattern, Target)) -> bool {
    (route: (Pattern, Target)) => Matches(route.0, data)
  }

  /** The first handler whose pattern accepts the data handles the press;
      with none, the press is dropped. */
  function Route(data: string): (r: Option<Target>)
    ensures r.None? <==> forall i :: 0 <= i < |Routes| ==> !Matches(Routes[i].0, data)
    ensures r.Some? ==>
      exists i :: 0 <= i < |Routes| && Matches(Routes[i].0, data) && Routes[i].1 == r.value
        && forall j :: 0 <= j < i ==> !Matches(Routes[j].0, data)
  {
    match First(Routes, RouteMatching(data))
    case None => None
    case Some(i) => Some(Routes[i].1)
  }

  /** What a handler does to the message the button sat on. `Crashed`
      stands for an exception escaping the handler. */
  datatype Outcome = Edited(text: string) | Silent | Crashed

  const DeleteSuccessReply := "Expense deleted successfully. Add a new expense manually or send a voice message."
  const DeleteFailureReply := "Failed to delete the expense."
  const DeactivatedReply := "Category deactivated successfully."
  const DeactivateFailedReply := "Failed to deactivate the category."
  const ReactivatedReply := "Category re-activated successfully."
  const ReactivateFailedReply := "Failed to re-activate the category."
  const CancelledReply := "Operation cancelled."

  /** `handle_expense_delete` as written: it tests the string returned by
      `delete_expense` for truth, and every such string is non-empty. Data
      without the prefix reaches a log line naming an unbound variable,
      which raises. */
  function HandleExpenseDelete(db: Db, u: int, data: string, store: Store): (r: (Outcome, Db))
    ensures !StartsWith(data, DeleteExpenseTag + "_") ==> r == (Crashed, db)
    ensures r.0.Edited? ==> r.0.text == DeleteSuccessReply
    ensures r.0.Edited? <==> StartsWith(data, DeleteExpenseTag + "_") && DecodeId(data).Some?
    ensures r.0.Edited? ==> r.1 == Expenses.DeleteExpense(db, u, DecodeId(data).value, store).1
  {
    if StartsWith(data, DeleteExpenseTag + "_") then
      match DecodeId(data)
      case None => (Crashed, db)
      case Some(id) =>
        var (answer, db1) := Expenses.DeleteExpense(db, u, id, store);
        (Edited(if |answer| > 0 then DeleteSuccessReply else DeleteFailureReply), db1)
    else
      (Crashed, db)
  }

  /** `handle_expense_delete` as evidently intended: success is reported
      exactly when `delete_expense` answers that it deleted the row. */
  function HandleExpenseDeleteCorrected(db: Db, u: int, data: string, store: Store): (r: (Outcome, Db))
    ensures !StartsWith(data, DeleteExpenseTag + "_") ==> r == (Crashed, db)
    ensures r.0.Edited? <==> StartsWith(data, DeleteExpenseTag + "_") && DecodeId(data).Some?
    ensures r.0.Edited? && store.Healthy? ==>
      (r.0.text == DeleteSuccessReply <==> Expenses.HasOwned(db.expenses, u, DecodeId(data).value))
    ensures r.0.Edited? && r.0.text == DeleteFailureReply ==> r.1 == db
    ensures r.0.Edited? ==> r.1 == Expenses.DeleteExpense(db, u, DecodeId(data).value, store).1
  {
    if StartsWith(data, DeleteExpenseTag + "_") then
      match DecodeId(data)
      case None => (Crashed, db)
      case Some(id) =>
        var (answer, db1) := Expenses.DeleteExpense(db, u, id, store);
        (Edited(if answer == Expenses.DeletedMessage then DeleteSuccessReply else DeleteFailureReply), db1)
    else
      (Crashed, db)
  }

  /** `handle_category_deactivation` (`activate` false) and
      `handle_category_reactivation` (`activate` true). The follow-up menu
      they send is screen output only. */
  function HandleCategoryStatus(db: Db, u: int, data: string, activate: bool): (r: (Outcome, Db))
    ensures StartsWith(data, StatusTag(activate) + "_") && DecodeId(data).None? ==> r == (Crashed, db)
    ensures StartsWith(data, StatusTag(activate) + "_") && DecodeId(data).Some? ==>
      r.1 == Categories.ChangeCategoryStatus(db, u, DecodeId(data).value, activate).1
      && (r.0 == Edited(StatusReply(activate, true)) <==> Categories.HasId(db.categories, u, DecodeId(data).value))
      && (r.0 == Edited(StatusReply(activate, true)) || r.0 == Edited(StatusReply(activate, false)))
    ensures !StartsWith(data, StatusTag(activate) + "_") && data == "cancel" ==> r == (Edited(CancelledReply), db)
    ensures !StartsWith(data, StatusTag(activate) + "_") && data != "cancel" ==> r == (Silent, db)
  {
    if StartsWith(data, StatusTag(activate) + "_") then
      match DecodeId(data)
      case None => (Crashed, db)
      case Some(id) =>
        var (changed, db1) := Categories.ChangeCategoryStatus(db, u, id, activate);
        (Edited(StatusReply(activate, changed)), db1)
    else if data == "cancel" then
      (Edited(CancelledReply), db)
    else
      (Silent, db)
  }

  function StatusTag(activate: bool): string {
    if activate then ReactivateTag else DeactivateTag
  }

  function StatusReply(activate: bool, success: bool): (r: string)
    ensures success != (r == DeactivateFailedReply || r == ReactivateFailedReply)
  {
    if activate then (if success then ReactivatedReply else ReactivateFailedReply)
    else (if success then DeactivatedReply else DeactivateFailedReply)
  }

  // ---------------------------------------------------------------------
  // Routing lemmas

  /** Two strings that differ at a position inside both cannot match each
      other as prefix or exactly. */
  lemma DifferAt(data: string, t: string, k: nat)
    requires k < |data| && k < |t| && data[k] != t[k]
    ensures !Matches(Prefix(t), data) && !Matches(Exact(t), data)
  {
    if |t| <= |data| {
      assert data[..|t|][k] == data[k];
    }
    assert (t + "\n")[k] == t[k];
  }

  /** The eight patterns registered before the deactivation listing all
      differ from "d?a" in their first or third character. */
  lemma EarlyPatternsShape()
    ensures forall j :: 0 <= j < 8 ==>
      |Routes[j].0.text| > 2 && (Routes[j].0.text[0] != 'd' || Routes[j].0.text[2] != 'a')
    ensures forall j :: 0 <= j < 10 ==>
      |Routes[j].0.text| > 2 && (Routes[j].0.text[0] != 'r' || Routes[j].0.text[2] != 'a')
  {
  }

  /** Data beginning "d?a" passes the eight patterns before the deactivation listing. */
  lemma MissesBeforeDeactivation(data: string)
    requires |data| > 2 && data[0] == 'd' && data[2] == 'a'
    ensures forall j :: 0 <= j < 8 ==> !Matches(Routes[j].0, data)
  {
    EarlyPatternsShape();
    forall j | 0 <= j < 8
      ensures !Matches(Routes[j].0, data)
    {
      if Routes[j].0.text[0] != 'd' {
        DifferAt(data, Routes[j].0.text, 0);
      } else {
        DifferAt(data, Routes[j].0.text, 2);
      }
    }
  }

  /** Data beginning "r?a" passes the ten patterns before the reactivation listing. */
  lemma MissesBeforeReactivation(data: string)
    requires |data| > 2 && data[0] == 'r' && data[2] == 'a'
    ensures forall j :: 0 <= j < 10 ==> !Matches(Routes[j].0, data)
  {
    EarlyPatternsShape();
    forall j | 0 <= j < 10
      ensures !Matches(Routes[j].0, data)
    {
      if Routes[j].0.text[0] != 'r' {
        DifferAt(data, Routes[j].0.text, 0);
      } else {
        DifferAt(data, Routes[j].0.text, 2);
      }
    }
  }

  /** An id's text starts with a digit or a minus sign, never with 'c'. */
  lemma IdDoesNotStartWithC(id: int)
    ensures |IntToString(id)| > 0 && IntToString(id)[0] != 'c'
  {
  }

  /** A press whose data the `i`-th pattern accepts, and no earlier one,
      goes to the `i`-th handler. */
  lemma RouteAt(data: string, i: nat)
    requires i < |Routes| && Matches(Routes[i].0, data)
    requires forall j :: 0 <= j < i ==> !Matches(Routes[j].0, data)
    ensures Route(data) == Some(Routes[i].1)
  {
    var p := RouteMatching(data);
    assert p(Routes[i]);
    assert forall j :: 0 <= j < i ==> !p(Routes[j]);
    assert First(Routes, p) == Some(i);
  }

  /** The data of a deactivation button reaches the deactivation handler,
      not the listing that shares its prefix. */
  lemma DeactivateButtonRoute(id: int)
    ensures Route(EncodeDeactivate(id)) == Some(CategoryDeactivation)
  {
    var data := EncodeDeactivate(id);
    var s := IntToString(id);
    IdDoesNotStartWithC(id);
    assert data == "deactivate_" + s;
    assert data[0] == 'd' && data[2] == 'a' && data[11] == s[0];
    MissesBeforeDeactivation(data);
    DifferAt(data, Routes[8].0.text, 11);
    assert Matches(Routes[9].0, data);
    RouteAt(data, 9);
  }

  /** The data of a reactivation button reaches the reactivation handler. */
  lemma ReactivateButtonRoute(id: int)
    ensures Route(EncodeReactivate(id)) == Some(CategoryReactivation)
  {
    var data := EncodeReactivate(id);
    var s := IntToString(id);
    IdDoesNotStartWithC(id);
    assert data == "reactivate_" + s;
    assert data[0] == 'r' && data[2] == 'a' && data[11] == s[0];
    MissesBeforeReactivation(data);
    DifferAt(data, Routes[10].0.text, 11);
    assert Matches(Routes[11].0, data);
    RouteAt(data, 11);
  }

  /** The data of a "Delete Expense" button reaches the delete handler. */
  lemma DeleteExpenseButtonRoute(id: int)
    ensures Route(EncodeExpenseDelete(id)) == Some(ExpenseDelete)
  {
    assert EncodeExpenseDelete(id) == "deleteexpense_" + IntToString(id);
    assert Matches(Routes[0].0, EncodeExpenseDelete(id));
  }

  /** A string beginning with `a + b` begins with `a`. */
  lemma PrefixOfPrefix(s: string, a: string, b: string)
    requires StartsWith(s, a + b)
    ensures StartsWith(s, a)
  {
    assert s[..|a|] == s[..|a + b|][..|a|];
  }

  /** The "Deactivate category" menu button, and any data beginning like
      it, is caught by the listing handler, although the deactivation
      handler registered after it would accept it too. */
  lemma DeactivationListRoute(d: string)
    requires StartsWith(d, "deactivate_category")
    ensures Route(d) == Some(DeactivationList)
    ensures Matches(Prefix("deactivate_"), d)
  {
    assert d[..19] == "deactivate_category";
    assert d[0] == 'd' && d[2] == 'a';
    PrefixOfPrefix(d, "deactivate_", "category");
    MissesBeforeDeactivation(d);
    assert Matches(Routes[8].0, d);
    RouteAt(d, 8);
  }

  /** Likewise the "Reactivate category" menu button, and any data
      beginning like it, reaches its listing. */
  lemma ReactivationListRoute(r: string)
    requires StartsWith(r, "reactivate_category")
    ensures Route(r) == Some(ReactivationList)
    ensures Matches(Prefix("reactivate_"), r)
  {
    assert r[..19] == "reactivate_category";
    assert r[0] == 'r' && r[2] == 'a';
    PrefixOfPrefix(r, "reactivate_", "category");
    MissesBeforeReactivation(r);
    assert Matches(Routes[10].0, r);
    RouteAt(r, 10);
  }

  /** No registered pattern accepts "cancel": the deactivation and
      reactivation handlers are registered for "^deactivate_" and
      "^reactivate_", so the Cancel button of the category lists reaches
      none of them while no conversation is running. */
  lemma CancelIsDropped()
    ensures Route("cancel") == None
  {
    var data := "cancel";
    CancelShape();
    forall j | 0 <= j < |Routes|
      ensures !Matches(Routes[j].0, data)
    {
      if Routes[j].0.text[0] != 'c' {
        DifferAt(data, Routes[j].0.text, 0);
      } else {
        DifferAt(data, Routes[j].0.text, 1);
      }
    }
  }

  /** Every registered pattern differs from "ca" in its first two characters. */
  lemma CancelShape()
    ensures forall j :: 0 <= j < |Routes| ==>
      |Routes[j].0.text| > 1 && (Routes[j].0.text[0] != 'c' || Routes[j].0.text[1] != 'a')
  {
  }

  // ---------------------------------------------------------------------
  // Handler lemmas

  /** Finding: as written, pressing "Delete Expense" on another user's
      expense reports success although nothing is deleted. */
  lemma ForeignExpenseReportedDeleted(db: Db, u: int, e: Expense)
    requires ExpenseKeys(db.expenses, db.nextExpenseId)
    requires e in db.expenses && e.userId != u
    ensures HandleExpenseDelete(db, u, EncodeExpenseDelete(e.id), Healthy) == (Edited(DeleteSuccessReply), db)
  {
    ExpenseDeleteRoundTrip(e.id);
    Expenses.ForeignExpenseIsNotFound(db, u, e);
  }

  /** With the correction, the same press reports the failure. */
  lemma ForeignExpenseReportedFailed(db: Db, u: int, e: Expense)
    requires ExpenseKeys(db.expenses, db.nextExpenseId)
    requires e in db.expenses && e.userId != u
    ensures HandleExpenseDeleteCorrected(db, u, EncodeExpenseDelete(e.id), Healthy) == (Edited(DeleteFailureReply), db)
  {
    ExpenseDeleteRoundTrip(e.id);
    Expenses.ForeignExpenseIsNotFound(db, u, e);
  }

  /** Every button of the deactivation list deactivates the category it
      names: the press is routed to the deactivation handler, which reports
      success and leaves that category inactive. */
  lemma DeactivationButtonDeactivates(db: Db, u: int, p: (string, int))
    requires p in Categories.GetCategoriesAndId(db.categories, u, 1)
    ensures Route(EncodeDeactivate(p.1)) == Some(CategoryDeactivation)
    ensures HandleCategoryStatus(db, u, EncodeDeactivate(p.1), false).0 == Edited(DeactivatedReply)
    ensures exists c :: (c in HandleCategoryStatus(db, u, EncodeDeactivate(p.1), false).1.categories
                         && c.userId == u && c.id == p.1 && !c.active)
  {
    DeactivateButtonRoute(p.1);
    CategoryStatusRoundTrip(p.1);
    var data := EncodeDeactivate(p.1);
    assert StartsWith(data, StatusTag(false) + "_");
    var r := Categories.ChangeCategoryStatus(db, u, p.1, false);
    var i :| 0 <= i < |db.categories| && db.categories[i].userId == u && db.categories[i].id == p.1
      && r.1 == db.(categories := db.categories[i := db.categories[i].(active := false)]);
    assert r.1.categories[i] in r.1.categories;
  }

  /** Every button of the reactivation list reactivates the category it
      names, whatever the number of active categories. */
  lemma ReactivationButtonReactivates(db: Db, u: int, p: (string, int))
    requires p in Categories.GetCategoriesAndId(db.categories, u, 2)
    ensures Route(EncodeReactivate(p.1)) == Some(CategoryReactivation)
    ensures HandleCategoryStatus(db, u, EncodeReactivate(p.1), true).0 == Edited(ReactivatedReply)
    ensures exists c :: (c in HandleCategoryStatus(db, u, EncodeReactivate(p.1), true).1.categories
                         && c.userId == u && c.id == p.1 && c.active)
  {
    ReactivateButtonRoute(p.1);
    CategoryStatusRoundTrip(p.1);
    var data := EncodeReactivate(p.1);
    assert StartsWith(data, StatusTag(true) + "_");
    var r := Categories.ChangeCategoryStatus(db, u, p.1, true);
    var i :| 0 <= i < |db.categories| && db.categories[i].userId == u && db.categories[i].id == p.1
      && r.1 == db.(categories := db.categories[i := db.categories[i].(active := true)]);
    assert r.1.categories[i] in r.1.categories;
  }
}

=== FILE: callbacks.dfy ===
/** The callback data bot.py attaches to inline buttons: a tag, an
    underscore, and an argument (an expense id, a category id or a date).
    Handlers read the argument back with `data.split('_')[1]`, and the ids
    with `int(...)` on top. */
module Callbacks {
  import opened Base
  import opened Text

  const DeleteExpenseTag := "deleteexpense"
  const DeactivateTag := "deactivate"
  const ReactivateTag := "reactivate"
  const ExpenseCategoryTag := "expensecat"
  const DateTag := "date"

  /** `f'{tag}_{arg}'`. */
  function Encode(tag: string, arg: string): (r: string)
    ensures |r| == |tag| + 1 + |arg|
    ensures StartsWith(r, tag + "_")
  {
    tag + "_" + arg
  }

  function EncodeExpenseDelete(expenseId: int): string {
    Encode(DeleteExpenseTag, IntToString(expenseId))
  }

  function EncodeDeactivate(categoryId: int): string {
    Encode(DeactivateTag, IntToString(categoryId))
  }

  function EncodeReactivate(categoryId: int): string {
    Encode(ReactivateTag, IntToString(categoryId))
  }

  function EncodeExpenseCategory(categoryId: int): string {
    Encode(ExpenseCategoryTag, IntToString(categoryId))
  }

  function EncodeDate(date: string): string {
    Encode(DateTag, date)
  }

  /** `data.split('_')[1]`; `None` stands for the IndexError raised when
      the data holds no underscore. */
  function Argument(data: string): (r: Option<string>)
    ensures r.None? <==> '_' !in data
    ensures r.Some? ==> '_' !in r.value
  {
    var parts := Split(data, '_');
    SplitFindsSeparator(data, '_');
    if |parts| >= 2 then Some(parts[1]) else None
  }

  /** `int(data.split('_')[1])`; `None` stands for the IndexError or the
      ValueError Python raises. */
  function DecodeId(data: string): (r: Option<int>)
    ensures r.Some? ==> Argument(data).Some?
  {
    match Argument(data)
    case None => None
    case Some(a) => ParseInt(a)
  }

  /** The dates offered by the expense form: `strftime("%Y-%m-%d")`. */
  predicate IsIsoDate(d: string) {
    |d| == 10 && d[4] == '-' && d[7] == '-'
    && forall i :: 0 <= i < 10 && i != 4 && i != 7 ==> IsDigit(d[i])
  }

  // ---------------------------------------------------------------------
  // Lemmas

  /** A string splits into more than one piece exactly when it holds the
      separator. */
  lemma SplitFindsSeparator(s: string, sep: char)
    ensures |Split(s, sep)| >= 2 <==> sep in s
  {
    var parts := Split(s, sep);
    JoinSplit(s, sep);
    if |parts| >= 2 {
      assert s == parts[0] + [sep] + Join(sep, parts[1..]);
      assert s[|parts[0]|] == sep;
    } else {
      assert s == parts[0];
    }
  }

  /** The argument is read back exactly when it holds no underscore itself
      (the tag never does): otherwise only its part before the first
      underscore comes back. */
  lemma ArgumentOfEncode(tag: string, arg: string)
    requires '_' !in tag
    ensures Argument(Encode(tag, arg)).Some?
    ensures Argument(Encode(tag, arg)) == Some(arg) <==> '_' !in arg
  {
    assert Encode(tag, arg) == tag + ['_'] + arg;
    SplitPrefix(tag, arg, '_');
    var rest := Split(arg, '_');
    assert Argument(Encode(tag, arg)) == Some(rest[0]);
    if '_' !in arg {
      SplitNoSeparator(arg, '_');
    } else {
      assert '_' !in rest[0];
    }
  }

  /** An id never contains an underscore. */
  lemma IdHasNoUnderscore(id: int)
    ensures '_' !in IntToString(id)
  {
    var s := IntToString(id);
    forall k | 0 <= k < |s|
      ensures s[k] != '_'
    {
      assert IsDigit(s[k]) || s[k] == '-';
    }
  }

  /** An id carried under any underscore-free tag decodes to itself. */
  lemma IdRoundTrip(tag: string, id: int)
    requires '_' !in tag
    ensures DecodeId(Encode(tag, IntToString(id))) == Some(id)
  {
    IdHasNoUnderscore(id);
    ArgumentOfEncode(tag, IntToString(id));
    IntStringRoundTrip(id);
  }

  /** The "Delete Expense" button decodes to the expense id it was built with. */
  lemma ExpenseDeleteRoundTrip(expenseId: int)
    ensures DecodeId(EncodeExpenseDelete(expenseId)) == Some(expenseId)
  {
    IdRoundTrip(DeleteExpenseTag, expenseId);
  }

  /** The deactivation and reactivation buttons decode to their category id. */
  lemma CategoryStatusRoundTrip(categoryId: int)
    ensures DecodeId(EncodeDeactivate(categoryId)) == Some(categoryId)
    ensures DecodeId(EncodeReactivate(categoryId)) == Some(categoryId)
  {
    IdRoundTrip(DeactivateTag, categoryId);
    IdRoundTrip(ReactivateTag, categoryId);
  }

  /** The expense-category button gives back the id as a string; the form
      stores that string without converting it. */
  lemma ExpenseCategoryRoundTrip(categoryId: int)
    ensures Argument(EncodeExpenseCategory(categoryId)) == Some(IntToString(categoryId))
  {
    IdHasNoUnderscore(categoryId);
    ArgumentOfEncode(ExpenseCategoryTag, IntToString(categoryId));
  }

  /** A date button gives back its date, which holds no underscore. */
  lemma DateRoundTrip(date: string)
    requires IsIsoDate(date)
    ensures Argument(EncodeDate(date)) == Some(date)
  {
    forall k | 0 <= k < |date|
      ensures date[k] != '_'
    {
      if k != 4 && k != 7 {
        assert IsDigit(date[k]);
      }
    }
    ArgumentOfEncode(DateTag, date);
  }
}

=== FILE: categories.dfy ===
/** The category service of app/categories.py. Every query is scoped to
    one user; names are compared after ASCII lower-casing; a user may hold
    at most 20 active categories, and deactivated ones do not count. */
module Categories {
  import opened Base
  import opened Text
  import opened Query
  import opened Models

  const MaxActiveCategories := 20

  const QuotaMessage := "Maximum number of categories reached"
  const DuplicateMessage := "This category already exists"
  const DeletedMessage := "Category deleted successfully"
  const NotFoundMessage := "Category not found"
  const NoCategoriesMessage := "No categories found."
  const ActiveTitle := "Active categories:"
  const DeactivatedTitle := "Deactivated categories:"

  /** Row filters, one per query of the service. */
  function ActiveOf(u: int): Category -> bool {
    (c: Category) => c.userId == u && c.active
  }

  function NamedFor(u: int, name: string): Category -> bool {
    (c: Category) => c.userId == u && SameName(c.name, name)
  }

  function WithId(u: int, id: int): Category -> bool {
    (c: Category) => c.userId == u && c.id == id
  }

  /** Whether a row appears in a listing of `kind`: 1 lists active rows,
      2 inactive rows, any other value every row of the user. */
  predicate Listed(u: int, kind: int, c: Category) {
    c.userId == u && (kind == 1 ==> c.active) && (kind == 2 ==> !c.active)
  }

  /** Some category of `u` already carries `name`, ignoring case. */
  predicate HasNamed(cats: seq<Category>, u: int, name: string) {
    exists c :: c in cats && c.userId == u && SameName(c.name, name)
  }

  predicate HasId(cats: seq<Category>, u: int, id: int) {
    exists c :: c in cats && c.userId == u && c.id == id
  }

  /** The application-level invariant: no user holds two categories whose
      names differ only in case. */
  predicate NamesUnique(cats: seq<Category>) {
    forall i, j :: 0 <= i < j < |cats| && cats[i].userId == cats[j].userId ==>
      !SameName(cats[i].name, cats[j].name)
  }

  /** `count_active_categories`: the number of the user's active rows. */
  function CountActiveCategories(cats: seq<Category>, u: int): (n: nat)
    ensures n <= |cats|
    ensures n == 0 <==> forall c :: c in cats ==> !(c.userId == u && c.active)
  {
    CountZero(cats, ActiveOf(u));
    Count(cats, ActiveOf(u))
  }

  /** `get_categories`: the names of the user's rows of the given kind,
      in table order. */
  function GetCategories(cats: seq<Category>, u: int, kind: int): (r: seq<string>)
    ensures |r| <= |cats|
    ensures forall n :: n in r <==> exists c :: c in cats && Listed(u, kind, c) && c.name == n
  {
    if |cats| == 0 then []
    else
      (if Listed(u, kind, cats[0]) then [cats[0].name] else [])
      + GetCategories(cats[1..], u, kind)
  }

  /** `get_categories_and_id`: the same listing as name and id pairs. */
  function GetCategoriesAndId(cats: seq<Category>, u: int, kind: int): (r: seq<(string, int)>)
    ensures |r| <= |cats|
    ensures forall p :: p in r <==> exists c :: c in cats && Listed(u, kind, c) && p == (c.name, c.id)
  {
    if |cats| == 0 then []
    else
      (if Listed(u, kind, cats[0]) then [(cats[0].name, cats[0].id)] else [])
      + GetCategoriesAndId(cats[1..], u, kind)
  }

  /** The active section, shown for kinds 0 and 1 when non-empty. */
  function ActiveSection(cats: seq<Category>, u: int, kind: int): seq<string> {
    if kind == 0 || kind == 1 then GetCategories(cats, u, 1) else []
  }

  /** The deactivated section, shown for kinds 0 and 2 when non-empty. */
  function DeactivatedSection(cats: seq<Category>, u: int, kind: int): seq<string> {
    if kind == 0 || kind == 2 then GetCategories(cats, u, 2) else []
  }

  /** `generate_categories_message`. The text is "No categories found."
      exactly when neither section has a name; otherwise it opens with the
      title of the first non-empty section. */
  function GenerateCategoriesMessage(cats: seq<Category>, u: int, kind: int): (r: string)
    ensures r == NoCategoriesMessage <==>
      |ActiveSection(cats, u, kind)| == 0 && |DeactivatedSection(cats, u, kind)| == 0
    ensures |ActiveSection(cats, u, kind)| > 0 ==> StartsWith(r, ActiveTitle + "\n")
    ensures |ActiveSection(cats, u, kind)| == 0 && |DeactivatedSection(cats, u, kind)| > 0 ==>
      StartsWith(r, DeactivatedTitle + "\n")
  {
    var active := ActiveSection(cats, u, kind);
    var inactive := DeactivatedSection(cats, u, kind);
    var message := MessageText(active, inactive);
    assert |active| > 0 ==> message[..|ActiveTitle + "\n"|] == ActiveTitle + "\n";
    assert |active| == 0 && |inactive| > 0 ==> message[..|DeactivatedTitle + "\n"|] == DeactivatedTitle + "\n";
    assert message != "" ==> message[0] != NoCategoriesMessage[0];
    if message == "" then NoCategoriesMessage else message
  }

  /** `get_category_name`: the name of the first row of the user with that
      id, or "Category not found". */
  function GetCategoryName(cats: seq<Category>, u: int, id: int): (r: string)
    ensures HasId(cats, u, id) ==> exists c :: c in cats && c.userId == u && c.id == id && r == c.name
    ensures !HasId(cats, u, id) ==> r == NotFoundMessage
  {
    match First(cats, WithId(u, id))
    case None => NotFoundMessage
    case Some(i) => cats[i].name
  }

  /** `add_category`. The quota is checked first, then the case-insensitive
      name clash; on success one active row is appended and `True` returned.
      A rejection raises and leaves the database as it was. */
  function AddCategory(db: Db, u: int, name: string, description: Option<string>): (r: (Result<bool>, Db))
    ensures CountActiveCategories(db.categories, u) >= MaxActiveCategories ==>
      r == (Raised(QuotaMessage), db)
    ensures CountActiveCategories(db.categories, u) < MaxActiveCategories && HasNamed(db.categories, u, name) ==>
      r == (Raised(DuplicateMessage), db)
    ensures r.0.Ok? <==>
      CountActiveCategories(db.categories, u) < MaxActiveCategories && !HasNamed(db.categories, u, name)
    ensures r.0.Ok? ==> r.0.value
    ensures r.0.Ok? ==>
      r.1 == db.(categories := db.categories + [Category(db.nextCategoryId, u, name, description, true)],
                 nextCategoryId := db.nextCategoryId + 1)
  {
    if CountActiveCategories(db.categories, u) >= MaxActiveCategories then
      (Raised(QuotaMessage), db)
    else if First(db.categories, NamedFor(u, name)).Some? then
      (Raised(DuplicateMessage), db)
    else
      var row := Category(db.nextCategoryId, u, name, description, true);
      (Ok(true), db.(categories := db.categories + [row], nextCategoryId := db.nextCategoryId + 1))
  }

  /** `delete_category`: removes the user's first row whose name matches
      ignoring case. Rows of other users always survive. */
  function DeleteCategory(db: Db, u: int, name: string): (r: (string, Db))
    ensures r.0 == DeletedMessage <==> HasNamed(db.categories, u, name)
    ensures r.0 != DeletedMessage ==> r == (NotFoundMessage, db)
    ensures r.0 == DeletedMessage ==>
      exists i :: 0 <= i < |db.categories| && db.categories[i].userId == u
        && SameName(db.categories[i].name, name)
        && r.1 == db.(categories := RemoveAt(db.categories, i))
    ensures forall c :: c in db.categories && c.userId != u ==> c in r.1.categories
    ensures r.1.users == db.users && r.1.expenses == db.expenses
  {
    match First(db.categories, NamedFor(u, name))
    case None => (NotFoundMessage, db)
    case Some(i) =>
      var rest := RemoveAt(db.categories, i);
      assert forall c :: c in db.categories && c.userId != u ==> c in multiset(rest);
      (DeletedMessage, db.(categories := rest))
  }

  /** `change_category_status`: sets `active` on the row matching both the
      user and the id and returns true; with no such row returns false. No
      other field and no other row changes, and the quota is not consulted. */
  function ChangeCategoryStatus(db: Db, u: int, id: int, activate: bool): (r: (bool, Db))
    ensures r.0 <==> HasId(db.categories, u, id)
    ensures !r.0 ==> r.1 == db
    ensures r.0 ==>
      exists i :: 0 <= i < |db.categories| && db.categories[i].userId == u && db.categories[i].id == id
        && (forall j :: 0 <= j < i ==> !(db.categories[j].userId == u && db.categories[j].id == id))
        && r.1 == db.(categories := db.categories[i := db.categories[i].(active := activate)])
  {
    match First(db.categories, WithId(u, id))
    case None => (false, db)
    case Some(i) =>
      (true, db.(categories := db.categories[i := db.categories[i].(active := activate)]))
  }

  // ---------------------------------------------------------------------
  // Listings and counts

  /** The active count is the length of the active listing. */
  lemma {:induction false} ActiveCountIsActiveListing(cats: seq<Category>, u: int)
    ensures CountActiveCategories(cats, u) == |GetCategories(cats, u, 1)|
  {
    if |cats| > 0 {
      ActiveCountIsActiveListing(cats[1..], u);
    }
  }

  /** Every row of the user is either active or inactive: the two listings
      together are as long as the full one. */
  lemma {:induction false} ListingsPartition(cats: seq<Category>, u: int)
    ensures |GetCategories(cats, u, 1)| + |GetCategories(cats, u, 2)| == |GetCategories(cats, u, 0)|
  {
    if |cats| > 0 {
      ListingsPartition(cats[1..], u);
    }
  }

  /** Any kind other than 1 and 2 lists every row of the user. */
  lemma {:induction false} OtherKindsListAll(cats: seq<Category>, u: int, kind: int)
    requires kind != 1 && kind != 2
    ensures GetCategories(cats, u, kind) == GetCategories(cats, u, 0)
  {
    if |cats| > 0 {
      OtherKindsListAll(cats[1..], u, kind);
    }
  }

  /** The pairs listing carries, position by position, the names listing. */
  lemma {:induction false} PairsCarryNames(cats: seq<Category>, u: int, kind: int)
    ensures |GetCategoriesAndId(cats, u, kind)| == |GetCategories(cats, u, kind)|
    ensures forall i :: 0 <= i < |GetCategories(cats, u, kind)| ==>
      GetCategoriesAndId(cats, u, kind)[i].0 == GetCategories(cats, u, kind)[i]
  {
    if |cats| > 0 {
      PairsCarryNames(cats[1..], u, kind);
    }
  }

  /** The message line by line: the title of each shown section, its names,
      and the blank lines the separators leave. */
  function MessageLines(active: seq<string>, inactive: seq<string>): seq<string> {
    if |active| == 0 && |inactive| == 0 then [NoCategoriesMessage]
    else if |inactive| == 0 then [ActiveTitle] + active + ["", ""]
    else if |active| == 0 then [DeactivatedTitle] + inactive
    else [ActiveTitle] + active + ["", DeactivatedTitle] + inactive
  }

  /** When no name of the user contains a line break, splitting the
      message on line breaks recovers every listed name. */
  lemma MessageSplitsIntoNames(cats: seq<Category>, u: int, kind: int)
    requires forall c :: c in cats && c.userId == u ==> '\n' !in c.name
    ensures Split(GenerateCategoriesMessage(cats, u, kind), '\n') ==
      MessageLines(ActiveSection(cats, u, kind), DeactivatedSection(cats, u, kind))
  {
    var active := ActiveSection(cats, u, kind);
    var inactive := DeactivatedSection(cats, u, kind);
    if |active| == 0 && |inactive| == 0 {
      SplitNoSeparator(NoCategoriesMessage, '\n');
    } else {
      assert forall n :: n in active ==> '\n' !in n;
      assert forall n :: n in inactive ==> '\n' !in n;
      LinesHaveNoBreak(active, inactive);
      MessageIsJoinOfLines(active, inactive);
      SplitJoin(MessageLines(active, inactive), '\n');
    }
  }

  lemma LinesHaveNoBreak(active: seq<string>, inactive: seq<string>)
    requires forall n :: n in active ==> '\n' !in n
    requires forall n :: n in inactive ==> '\n' !in n
    ensures forall i :: 0 <= i < |MessageLines(active, inactive)| ==> '\n' !in MessageLines(active, inactive)[i]
  {
    assert '\n' !in ActiveTitle;
    assert '\n' !in DeactivatedTitle;
    assert '\n' !in NoCategoriesMessage;
    var lines := MessageLines(active, inactive);
    forall i | 0 <= i < |lines|
      ensures '\n' !in lines[i]
    {
      assert lines[i] in [ActiveTitle, DeactivatedTitle, NoCategoriesMessage, ""] || lines[i] in active || lines[i] in inactive;
    }
  }

  /** The message text built from the two sections, before the empty case
      is replaced by "No categories found.". */
  function MessageText(active: seq<string>, inactive: seq<string>): string {
    (if |active| > 0 then ActiveTitle + "\n" + Join('\n', active) + "\n\n" else "")
    + (if |inactive| > 0 then DeactivatedTitle + "\n" + Join('\n', inactive) else "")
  }

  lemma MessageIsJoinOfLines(active: seq<string>, inactive: seq<string>)
    requires |active| > 0 || |inactive| > 0
    ensures MessageText(active, inactive) == Join('\n', MessageLines(active, inactive))
  {
    if |active| > 0 {
      ActiveHeadJoin(active);
      if |inactive| == 0 {
        ActiveOnlyJoin(active);
      } else {
        BothSectionsJoin(active, inactive);
      }
    } else {
      JoinConcat('\n', [DeactivatedTitle], inactive);
    }
  }

  /** The active title and its names, joined. */
  lemma ActiveHeadJoin(active: seq<string>)
    requires |active| > 0
    ensures Join('\n', [ActiveTitle] + active) == ActiveTitle + "\n" + Join('\n', active)
  {
    JoinConcat('\n', [ActiveTitle], active);
  }

  /** With only active names, the two trailing blank lines give "\n\n". */
  lemma ActiveOnlyJoin(active: seq<string>)
    requires |active| > 0
    ensures Join('\n', [ActiveTitle] + active + ["", ""]) == ActiveTitle + "\n" + Join('\n', active) + "\n\n"
  {
    var head := [ActiveTitle] + active;
    ActiveHeadJoin(active);
    TwoBlankLines('\n', head);
    assert ['\n', '\n'] == "\n\n";
  }

  /** Two empty pieces after a list add two separators to its join. */
  lemma TwoBlankLines(sep: char, head: seq<string>)
    requires |head| >= 1
    ensures Join(sep, head + ["", ""]) == Join(sep, head) + [sep, sep]
  {
    JoinConcat(sep, head, ["", ""]);
    assert Join(sep, ["", ""]) == [sep];
  }

  /** With both sections, the blank line and the second title sit between them. */
  lemma BothSectionsJoin(active: seq<string>, inactive: seq<string>)
    requires |active| > 0 && |inactive| > 0
    ensures Join('\n', [ActiveTitle] + active + ["", DeactivatedTitle] + inactive) ==
      ActiveTitle + "\n" + Join('\n', active) + "\n\n" + (DeactivatedTitle + "\n" + Join('\n', inactive))
  {
    var head := [ActiveTitle] + active;
    var tail := ["", DeactivatedTitle] + inactive;
    ActiveHeadJoin(active);
    JoinConcat('\n', ["", DeactivatedTitle], inactive);
    assert Join('\n', ["", DeactivatedTitle]) == "\n" + DeactivatedTitle;
    assert Join('\n', tail) == "\n" + DeactivatedTitle + "\n" + Join('\n', inactive);
    JoinConcat('\n', head, tail);
    assert head + tail == [ActiveTitle] + active + ["", DeactivatedTitle] + inactive;
  }

  /** The message is exactly its lines joined by line breaks, whatever the
      names contain. */
  lemma MessageIsJoin(cats: seq<Category>, u: int, kind: int)
    ensures GenerateCategoriesMessage(cats, u, kind) ==
      Join('\n', MessageLines(ActiveSection(cats, u, kind), DeactivatedSection(cats, u, kind)))
  {
    var active := ActiveSection(cats, u, kind);
    var inactive := DeactivatedSection(cats, u, kind);
    if |active| > 0 || |inactive| > 0 {
      MessageIsJoinOfLines(active, inactive);
      if |active| > 0 {
        assert MessageText(active, inactive)[0] == ActiveTitle[0];
      } else {
        assert MessageText(active, inactive)[0] == DeactivatedTitle[0];
      }
    }
  }

  /** Under unique ids, the looked-up name is the name of that category. */
  lemma CategoryNameOfKnownId(cats: seq<Category>, next: int, c: Category)
    requires CategoryKeys(cats, next)
    requires c in cats
    ensures GetCategoryName(cats, c.userId, c.id) == c.name
  {
  }

  // ---------------------------------------------------------------------
  // Adding

  /** A successful add is visible in the active listing of that user. */
  lemma AddedCategoryIsListed(db: Db, u: int, name: string, description: Option<string>)
    requires AddCategory(db, u, name, description).0.Ok?
    ensures name in GetCategories(AddCategory(db, u, name, description).1.categories, u, 1)
  {
    var cats := AddCategory(db, u, name, description).1.categories;
    assert cats[|cats| - 1] in cats;
  }

  /** Adding keeps the key and uniqueness invariants and never takes a user
      over the quota. */
  lemma AddCategoryPreservesInvariants(db: Db, u: int, name: string, description: Option<string>, v: int)
    requires Valid(db) && NamesUnique(db.categories)
    requires CountActiveCategories(db.categories, v) <= MaxActiveCategories
    ensures Valid(AddCategory(db, u, name, description).1)
    ensures NamesUnique(AddCategory(db, u, name, description).1.categories)
    ensures CountActiveCategories(AddCategory(db, u, name, description).1.categories, v) <= MaxActiveCategories
  {
    var r := AddCategory(db, u, name, description);
    if r.0.Ok? {
      var row := Category(db.nextCategoryId, u, name, description, true);
      CountAppend(db.categories, row, ActiveOf(v));
      var cats := r.1.categories;
      forall i, j | 0 <= i < j < |cats| && cats[i].userId == cats[j].userId
        ensures !SameName(cats[i].name, cats[j].name)
      {
        if j == |cats| - 1 {
          assert cats[i] in db.categories;
        }
      }
    }
  }

  /** Deleting the name just added gives the table back. */
  lemma AddThenDeleteCategory(db: Db, u: int, name: string, description: Option<string>)
    requires AddCategory(db, u, name, description).0.Ok?
    ensures DeleteCategory(AddCategory(db, u, name, description).1, u, name) ==
      (DeletedMessage, db.(nextCategoryId := db.nextCategoryId + 1))
  {
    var db1 := AddCategory(db, u, name, description).1;
    var cats := db1.categories;
    var k := |db.categories|;
    forall j | 0 <= j < k
      ensures !NamedFor(u, name)(cats[j])
    {
      assert cats[j] == db.categories[j];
      assert db.categories[j] in db.categories;
    }
    assert NamedFor(u, name)(cats[k]);
    assert First(cats, NamedFor(u, name)) == Some(k);
    assert RemoveAt(cats, k) == db.categories;
  }

  // ---------------------------------------------------------------------
  // Deleting and changing status

  lemma DeleteCategoryPreservesInvariants(db: Db, u: int, name: string)
    requires Valid(db) && NamesUnique(db.categories)
    ensures Valid(DeleteCategory(db, u, name).1)
    ensures NamesUnique(DeleteCategory(db, u, name).1.categories)
  {
    var r := DeleteCategory(db, u, name);
    if r.0 == DeletedMessage {
      var i :| 0 <= i < |db.categories| && r.1 == db.(categories := RemoveAt(db.categories, i));
      RemovalKeepsCategoryInvariants(db.categories, i, db.nextCategoryId);
    }
  }

  /** Removing a row keeps keys unique and below the counter, and names
      unique per user. */
  lemma RemovalKeepsCategoryInvariants(cats: seq<Category>, i: nat, next: int)
    requires i < |cats|
    requires CategoryKeys(cats, next) && NamesUnique(cats)
    ensures CategoryKeys(RemoveAt(cats, i), next) && NamesUnique(RemoveAt(cats, i))
  {
    var rest := RemoveAt(cats, i);
    forall a, b | 0 <= a < b < |rest|
      ensures rest[a].id != rest[b].id
      ensures rest[a].userId == rest[b].userId ==> !SameName(rest[a].name, rest[b].name)
    {
      var a' := if a < i then a else a + 1;
      var b' := if b < i then b else b + 1;
      assert rest[a] == cats[a'] && rest[b] == cats[b'] && a' < b';
    }
  }

  lemma ChangeStatusPreservesInvariants(db: Db, u: int, id: int, activate: bool)
    requires Valid(db) && NamesUnique(db.categories)
    ensures Valid(ChangeCategoryStatus(db, u, id, activate).1)
    ensures NamesUnique(ChangeCategoryStatus(db, u, id, activate).1.categories)
  {
  }

  /** Deactivating a category and reactivating it restores the table, so
      names, descriptions and listings are as before. */
  lemma DeactivateThenReactivate(db: Db, u: int, id: int)
    requires HasId(db.categories, u, id)
    requires forall c :: c in db.categories && c.userId == u && c.id == id ==> c.active
    ensures ChangeCategoryStatus(ChangeCategoryStatus(db, u, id, false).1, u, id, true) == (true, db)
  {
    var cats := db.categories;
    var i := First(cats, WithId(u, id)).value;
    var db1 := ChangeCategoryStatus(db, u, id, false).1;
    assert db1.categories == cats[i := cats[i].(active := false)];
    assert forall j :: 0 <= j < |cats| ==> (WithId(u, id)(db1.categories[j]) <==> WithId(u, id)(cats[j]));
    assert First(db1.categories, WithId(u, id)) == Some(i);
    assert cats[i] in cats;
    assert db1.categories[i := db1.categories[i].(active := true)] == cats;
  }

  /** Reactivation does not consult the quota: flipping an inactive row of
      the user adds one to the active count, so a user at 20 reaches 21. */
  lemma ReactivationIgnoresQuota(db: Db, u: int, id: int)
    requires HasId(db.categories, u, id)
    requires forall c :: c in db.categories && c.userId == u && c.id == id ==> !c.active
    ensures ChangeCategoryStatus(db, u, id, true).0
    ensures CountActiveCategories(ChangeCategoryStatus(db, u, id, true).1.categories, u) ==
      CountActiveCategories(db.categories, u) + 1
  {
    var cats := db.categories;
    var i := First(cats, WithId(u, id)).value;
    assert cats[i] in cats;
    CountUpdate(cats, i, cats[i].(active := true), ActiveOf(u));
  }
}

=== FILE: expenses.dfy ===
/** The expense service of app/expenses.py: insertion without any check on
    the category, deletion scoped to the owning user, and the "last 5"
    query that inner-joins expenses to category names and orders them by
    creation time, newest first. Database errors are caught and turned into
    `None` or an error string. */
module Expenses {
  import opened Base
  import opened Query
  import opened Models

  const DeletedMessage := "Expense deleted successfully."
  const NotFoundMessage := "Expense not found or does not belong to the user."
  const ErrorPrefix := "An error occurred: "

  /** `.limit(5)` of the recent-expenses query. */
  const RecentLimit := 5

  function OwnedWithId(u: int, id: int): Expense -> bool {
    (e: Expense) => e.userId == u && e.id == id
  }

  predicate HasOwned(es: seq<Expense>, u: int, id: int) {
    exists e :: e in es && e.userId == u && e.id == id
  }

  /** `add_expense`: appends one row with the given fields, `str(date)` as
      its date and the clock reading as its creation time, and returns it.
      Nothing checks that the category exists or belongs to the user. */
  function AddExpense(db: Db, amount: int, categoryId: int, u: int, date: string, now: int, store: Store): (r: (Option<Expense>, Db))
    ensures store.Raises? ==> r == (None, db)
    ensures store.Healthy? ==> r.0.Some?
    ensures r.0.Some? ==>
      && r.0.value.id == db.nextExpenseId
      && r.0.value.amount == amount
      && r.0.value.categoryId == categoryId
      && r.0.value.userId == u
      && r.0.value.date == date
      && r.0.value.description.None?
      && r.0.value.createdAt == now
    ensures r.0.Some? ==>
      r.1 == db.(expenses := db.expenses + [r.0.value], nextExpenseId := db.nextExpenseId + 1)
  {
    if store.Raises? then (None, db)
    else
      var row := Expense(db.nextExpenseId, amount, u, categoryId, None, date, now);
      (Some(row), db.(expenses := db.expenses + [row], nextExpenseId := db.nextExpenseId + 1))
  }

  /** `delete_expense`: removes the first row whose owner and id both match.
      Every answer is a non-empty string, and no row that fails either
      match is ever removed. */
  function DeleteExpense(db: Db, u: int, id: int, store: Store): (r: (string, Db))
    ensures |r.0| > 0
    ensures store.Raises? ==> r == (ErrorPrefix + store.error, db)
    ensures store.Healthy? ==> (r.0 == DeletedMessage <==> HasOwned(db.expenses, u, id))
    ensures store.Healthy? && r.0 != DeletedMessage ==> r == (NotFoundMessage, db)
    ensures r.0 == DeletedMessage ==>
      exists i :: 0 <= i < |db.expenses| && db.expenses[i].userId == u && db.expenses[i].id == id
        && r.1 == db.(expenses := RemoveAt(db.expenses, i))
    ensures forall e :: e in db.expenses && !(e.userId == u && e.id == id) ==> e in r.1.expenses
    ensures r.1.users == db.users && r.1.categories == db.categories
  {
    if store.Raises? then
      assert (ErrorPrefix + store.error)[0] != DeletedMessage[0];
      (ErrorPrefix + store.error, db)
    else
      match First(db.expenses, OwnedWithId(u, id))
      case None => (NotFoundMessage, db)
      case Some(i) =>
        var rest := RemoveAt(db.expenses, i);
        assert forall e :: e in db.expenses && !(e.userId == u && e.id == id) ==> e in multiset(rest);
        (DeletedMessage, db.(expenses := rest))
  }

  // ---------------------------------------------------------------------
  // The recent-expenses query

  /** A row of the join: an expense with the name of a category whose id
      equals its category id. */
  datatype Joined = Joined(expense: Expense, categoryName: string)

  /** The tuple the query selects: `Expense.id, Expense.amount, Category.name`. */
  datatype ExpenseLine = ExpenseLine(id: int, amount: int, categoryName: string)

  /** The join rows of one expense, one per category with a matching id. */
  function JoinRows(e: Expense, cats: seq<Category>): (r: seq<Joined>)
    ensures forall j :: j in r <==> exists c :: c in cats && c.id == e.categoryId && j == Joined(e, c.name)
  {
    if |cats| == 0 then []
    else
      (if cats[0].id == e.categoryId then [Joined(e, cats[0].name)] else [])
      + JoinRows(e, cats[1..])
  }

  /** `join(Category, Expense.category_id == Category.id).filter(Expense.user_id == u)`:
      an inner join, so expenses without a matching category are dropped.
      The category's owner is not compared. */
  function UserJoin(es: seq<Expense>, cats: seq<Category>, u: int): (r: seq<Joined>)
    ensures forall j :: j in r <==>
      j.expense in es && j.expense.userId == u
      && exists c :: c in cats && c.id == j.expense.categoryId && c.name == j.categoryName
  {
    if |es| == 0 then []
    else
      (if es[0].userId == u then JoinRows(es[0], cats) else [])
      + UserJoin(es[1..], cats, u)
  }

  /** Ordered by `created_at` descending. */
  predicate NewestFirst(s: seq<Joined>) {
    forall i, j :: 0 <= i < j < |s| ==> s[i].expense.createdAt >= s[j].expense.createdAt
  }

  function InsertByRecency(x: Joined, s: seq<Joined>): (r: seq<Joined>)
    requires NewestFirst(s)
    ensures |r| == |s| + 1
    ensures r[0] == x || (|s| > 0 && r[0] == s[0])
    ensures NewestFirst(r)
    ensures multiset(r) == multiset(s) + multiset{x}
  {
    if |s| == 0 || s[0].expense.createdAt <= x.expense.createdAt then
      [x] + s
    else
      var tail := InsertByRecency(x, s[1..]);
      assert s[0].expense.createdAt >= tail[0].expense.createdAt;
      assert s == [s[0]] + s[1..];
      [s[0]] + tail
  }

  /** `order_by(Expense.created_at.desc())`: a permutation of the rows,
      newest first. */
  function SortByRecency(s: seq<Joined>): (r: seq<Joined>)
    ensures |r| == |s|
    ensures NewestFirst(r)
    ensures multiset(r) == multiset(s)
  {
    if |s| == 0 then []
    else
      assert s == [s[0]] + s[1..];
      InsertByRecency(s[0], SortByRecency(s[1..]))
  }

  /** The rows of `retrieve_last5_expenses` before projection: at most five
      joined rows of the user, newest first, and no row left out is newer
      than any row kept. */
  function LastFiveJoined(es: seq<Expense>, cats: seq<Category>, u: int): (r: seq<Joined>)
    ensures |r| <= RecentLimit
    ensures |UserJoin(es, cats, u)| >= RecentLimit ==> |r| == RecentLimit
    ensures |UserJoin(es, cats, u)| < RecentLimit ==> |r| == |UserJoin(es, cats, u)|
    ensures NewestFirst(r)
    ensures multiset(r) <= multiset(UserJoin(es, cats, u))
    ensures forall j :: j in r ==>
      j.expense in es && j.expense.userId == u
      && exists c :: c in cats && c.id == j.expense.categoryId && c.name == j.categoryName
    ensures forall x :: x in multiset(UserJoin(es, cats, u)) - multiset(r) ==>
      forall i :: 0 <= i < |r| ==> x.expense.createdAt <= r[i].expense.createdAt
  {
    var all := UserJoin(es, cats, u);
    var k := if |all| < RecentLimit then |all| else RecentLimit;
    NewestCut(all, k);
    var kept := SortByRecency(all)[..k];
    KeptRowsAreJoined(es, cats, u, kept);
    kept
  }

  /** The first `k` rows of the sorted list, stated against the unsorted one. */
  lemma NewestCut(all: seq<Joined>, k: nat)
    requires k <= |all|
    ensures |SortByRecency(all)[..k]| == k
    ensures NewestFirst(SortByRecency(all)[..k])
    ensures multiset(SortByRecency(all)[..k]) <= multiset(all)
    ensures forall x :: x in multiset(all) - multiset(SortByRecency(all)[..k]) ==>
      forall i :: 0 <= i < k ==> x.expense.createdAt <= SortByRecency(all)[..k][i].expense.createdAt
  {
    var sorted := SortByRecency(all);
    LeftOutAreOlder(sorted, k);
    assert multiset(all) - multiset(sorted[..k]) == multiset(sorted[k..]);
  }

  lemma KeptRowsAreJoined(es: seq<Expense>, cats: seq<Category>, u: int, kept: seq<Joined>)
    requires multiset(kept) <= multiset(UserJoin(es, cats, u))
    ensures forall j :: j in kept ==>
      j.expense in es && j.expense.userId == u
      && exists c :: c in cats && c.id == j.expense.categoryId && c.name == j.categoryName
  {
    forall j | j in kept
      ensures j in UserJoin(es, cats, u)
    {
      assert j in multiset(kept);
    }
  }

  /** Cutting a newest-first list keeps a prefix; everything after the cut
      is no newer than anything before it. */
  lemma LeftOutAreOlder(sorted: seq<Joined>, k: nat)
    requires NewestFirst(sorted) && k <= |sorted|
    ensures NewestFirst(sorted[..k])
    ensures multiset(sorted[..k]) <= multiset(sorted)
    ensures multiset(sorted) - multiset(sorted[..k]) == multiset(sorted[k..])
    ensures forall x :: x in multiset(sorted[k..]) ==>
      forall i :: 0 <= i < k ==> x.expense.createdAt <= sorted[i].expense.createdAt
  {
    assert sorted == sorted[..k] + sorted[k..];
    forall x | x in multiset(sorted[k..])
      ensures forall i :: 0 <= i < k ==> x.expense.createdAt <= sorted[i].expense.createdAt
    {
      var m :| 0 <= m < |sorted[k..]| && sorted[k..][m] == x;
      assert x == sorted[k + m];
    }
  }

  /** `retrieve_last5_expenses`: the projected rows of `LastFiveJoined`, or
      `None` when the database raises. */
  function RetrieveLast5Expenses(db: Db, u: int, store: Store): (r: Option<seq<ExpenseLine>>)
    ensures store.Raises? <==> r.None?
    ensures r.Some? ==> |r.value| == |LastFiveJoined(db.expenses, db.categories, u)|
    ensures r.Some? ==> forall i :: 0 <= i < |r.value| ==>
      var j := LastFiveJoined(db.expenses, db.categories, u)[i];
      r.value[i] == ExpenseLine(j.expense.id, j.expense.amount, j.categoryName)
  {
    if store.Raises? then None
    else
      var rows := LastFiveJoined(db.expenses, db.categories, u);
      Some(seq(|rows|, i requires 0 <= i < |rows| => ExpenseLine(rows[i].expense.id, rows[i].expense.amount, rows[i].categoryName)))
  }

  // ---------------------------------------------------------------------
  // Lemmas

  /** Deleting the expense just added gives the table back. */
  lemma AddThenDeleteExpense(db: Db, amount: int, categoryId: int, u: int, date: string, now: int)
    requires ExpenseKeys(db.expenses, db.nextExpenseId)
    ensures
      var (row, db1) := AddExpense(db, amount, categoryId, u, date, now, Healthy);
      DeleteExpense(db1, u, row.value.id, Healthy) == (DeletedMessage, db.(nextExpenseId := db.nextExpenseId + 1))
  {
    var (row, db1) := AddExpense(db, amount, categoryId, u, date, now, Healthy);
    var es := db1.expenses;
    var k := |db.expenses|;
    assert forall j :: 0 <= j < k ==> es[j] == db.expenses[j] && !OwnedWithId(u, row.value.id)(es[j]);
    assert OwnedWithId(u, row.value.id)(es[k]);
    assert First(es, OwnedWithId(u, row.value.id)) == Some(k);
    assert RemoveAt(es, k) == db.expenses;
  }

  /** Another user's expense id is "not found": with unique ids, naming
      someone else's expense deletes nothing. */
  lemma ForeignExpenseIsNotFound(db: Db, u: int, e: Expense)
    requires ExpenseKeys(db.expenses, db.nextExpenseId)
    requires e in db.expenses && e.userId != u
    ensures DeleteExpense(db, u, e.id, Healthy) == (NotFoundMessage, db)
  {
  }

  /** Adding an expense keeps primary keys unique and below the counter. */
  lemma AddExpensePreservesKeys(db: Db, amount: int, categoryId: int, u: int, date: string, now: int, store: Store)
    requires ExpenseKeys(db.expenses, db.nextExpenseId)
    ensures
      var db1 := AddExpense(db, amount, categoryId, u, date, now, store).1;
      ExpenseKeys(db1.expenses, db1.nextExpenseId)
  {
  }

  /** Deleting an expense keeps primary keys unique and below the counter. */
  lemma DeleteExpensePreservesKeys(db: Db, u: int, id: int, store: Store)
    requires ExpenseKeys(db.expenses, db.nextExpenseId)
    ensures
      var db1 := DeleteExpense(db, u, id, store).1;
      ExpenseKeys(db1.expenses, db1.nextExpenseId)
  {
    var r := DeleteExpense(db, u, id, store);
    if r.0 == DeletedMessage {
      var i :| 0 <= i < |db.expenses| && r.1 == db.(expenses := RemoveAt(db.expenses, i));
      RemovalKeepsExpenseKeys(db.expenses, i, db.nextExpenseId);
    }
  }

  lemma RemovalKeepsExpenseKeys(es: seq<Expense>, i: nat, next: int)
    requires i < |es| && ExpenseKeys(es, next)
    ensures ExpenseKeys(RemoveAt(es, i), next)
  {
    var rest := RemoveAt(es, i);
    forall a, b | 0 <= a < b < |rest|
      ensures rest[a].id != rest[b].id
    {
      var a' := if a < i then a else a + 1;
      var b' := if b < i then b else b + 1;
      assert rest[a] == es[a'] && rest[b] == es[b'] && a' < b';
    }
  }

  /** An expense of the user whose category id matches no category never
      appears in the recent list. */
  lemma UnjoinableExpenseOmitted(db: Db, u: int, e: Expense)
    requires forall c :: c in db.categories ==> c.id != e.categoryId
    ensures forall j :: j in LastFiveJoined(db.expenses, db.categories, u) ==> j.expense != e
  {
  }
}

=== FILE: forms.dfy ===
/** The three ConversationHandler forms of bot.py: adding an expense,
    registering, and linking a spreadsheet. Each step takes the current
    stage, the per-user `user_data` dictionary and one incoming update, and
    gives the next stage and dictionary, plus the service call the final
    step makes. */
module Forms {
  import opened Base
  import opened Text
  import opened Models
  import opened Callbacks
  import Handlers
  import Users
  import Sheets

  /** `context.user_data`: keys to text or `None`. */
  type UserData = map<string, Option<string>>

  /** `user_data.get(key)`. */
  function Get(ud: UserData, key: string): (r: Option<string>)
    ensures key !in ud ==> r.None?
    ensures key in ud ==> r == ud[key]
  {
    if key in ud then ud[key] else None
  }

  /** An update reaching a conversation: a text message or a button press. */
  datatype Event = Message(text: string) | Press(data: string)

  /** `filters.TEXT & ~filters.COMMAND`: a text that is not a bot command. */
  predicate PlainText(text: string) {
    !StartsWith(text, "/")
  }

  /** The `'^cancel$'` fallback every form shares. */
  predicate IsCancel(e: Event) {
    e.Press? && Handlers.Matches(Handlers.Exact("cancel"), e.data)
  }

  // ---------------------------------------------------------------------
  // The expense form

  datatype ExpenseStage = ExpenseIdle | Amount | ChooseCategory | Describe | ChooseDate

  const AmountKey := "expense_amount"
  const CategoryIdKey := "expense_category_id"
  /** The key `complete_expensecreation` reads the description from. */
  const DescriptionKey := "expense_description"
  /** The key `ask_expensedate` writes the description under. */
  const MisspeltDescriptionKey := "expense_desription"
  const DateKey := "expense_date"

  /** The arguments `complete_expensecreation` hands to `add_expense`. */
  datatype ExpenseCall = ExpenseCall(userId: int, amount: Option<string>, categoryId: Option<string>,
                                     description: Option<string>, date: Option<string>)

  datatype ExpenseForm = ExpenseForm(stage: ExpenseStage, data: UserData)

  /** One update of the expense form, with the description stored under
      `descKey`. Stage handlers come first, then the cancel fallback; any
      other update is not for this conversation and changes nothing. */
  function ExpenseStep(descKey: string, f: ExpenseForm, u: int, e: Event): (r: (ExpenseForm, Option<ExpenseCall>))
    ensures r.1.Some? ==> f.stage == ChooseDate && r.0.stage == ExpenseIdle
    ensures r.1.Some? ==> r.1.value.description == Get(f.data, DescriptionKey)
    ensures r.1.Some? ==> r.1.value.amount == Get(f.data, AmountKey) && r.1.value.userId == u
    ensures (f.stage != ExpenseIdle && IsCancel(e)
             && !(f.stage == ChooseDate && e.Press? && StartsWith(e.data, DateTag + "_"))
             && !(f.stage == ChooseCategory && e.Press? && StartsWith(e.data, ExpenseCategoryTag + "_"))) ==>
      r == (ExpenseForm(ExpenseIdle, map[]), None)
    ensures f.stage == ExpenseIdle && !IsCancel(e) && !(e.Press? && Handlers.Matches(Handlers.Exact("add_expense"), e.data)) ==>
      r == (f, None)
  {
    var ud := f.data;
    if f.stage == ExpenseIdle && e.Press? && Handlers.Matches(Handlers.Exact("add_expense"), e.data) then
      (ExpenseForm(Amount, ud), None)
    else if f.stage == Amount && e.Message? && PlainText(e.text) then
      (ExpenseForm(ChooseCategory, ud[AmountKey := Some(e.text)]), None)
    else if f.stage == ChooseCategory && e.Press? && StartsWith(e.data, ExpenseCategoryTag + "_") then
      (ExpenseForm(Describe, ud[CategoryIdKey := Argument(e.data)]), None)
    else if f.stage == Describe && e.Message? && PlainText(e.text) then
      (ExpenseForm(ChooseDate, ud[descKey := Some(e.text)]), None)
    else if f.stage == ChooseDate && e.Press? && StartsWith(e.data, DateTag + "_") then
      var ud1 := ud[DateKey := Argument(e.data)];
      (ExpenseForm(ExpenseIdle, ud1),
       Some(ExpenseCall(u, Get(ud1, AmountKey), Get(ud1, CategoryIdKey), Get(ud1, DescriptionKey), Get(ud1, DateKey))))
    else if f.stage != ExpenseIdle && IsCancel(e) then
      (ExpenseForm(ExpenseIdle, map[]), None)
    else
      (f, None)
  }

  /** The form as written: the description goes under the misspelt key,
      so the key the last step reads keeps whatever it held before. */
  function ExpenseStepAsWritten(f: ExpenseForm, u: int, e: Event): (r: (ExpenseForm, Option<ExpenseCall>))
    ensures f.stage == Describe && e.Message? && PlainText(e.text) ==>
      r.0.stage == ChooseDate && Get(r.0.data, MisspeltDescriptionKey) == Some(e.text)
      && Get(r.0.data, DescriptionKey) == Get(f.data, DescriptionKey)
  {
    ExpenseStep(MisspeltDescriptionKey, f, u, e)
  }

  /** The form as evidently intended: written and read under one key. */
  function ExpenseStepCorrected(f: ExpenseForm, u: int, e: Event): (r: (ExpenseForm, Option<ExpenseCall>))
    ensures f.stage == Describe && e.Message? && PlainText(e.text) ==>
      r.0.stage == ChooseDate && Get(r.0.data, DescriptionKey) == Some(e.text)
  {
    ExpenseStep(DescriptionKey, f, u, e)
  }

  /** The five updates of a complete expense entry. */
  function ExpenseEntry(amount: string, categoryId: int, description: string, date: string): seq<Event> {
    [Press("add_expense"), Message(amount), Press(EncodeExpenseCategory(categoryId)),
     Message(description), Press(EncodeDate(date))]
  }

  /** Feeds updates to a step function, collecting the calls made. */
  function RunExpense(descKey: string, f: ExpenseForm, u: int, events: seq<Event>): (r: (ExpenseForm, seq<ExpenseCall>))
    ensures |r.1| <= |events|
    decreases |events|
  {
    if |events| == 0 then (f, [])
    else
      var step := ExpenseStep(descKey, f, u, events[0]);
      var rest := RunExpense(descKey, step.0, u, events[1..]);
      (rest.0, (if step.1.Some? then [step.1.value] else []) + rest.1)
  }

  /** Running a single update is taking that step. */
  lemma RunOne(descKey: string, f: ExpenseForm, u: int, e: Event)
    ensures RunExpense(descKey, f, u, [e]).0 == ExpenseStep(descKey, f, u, e).0
    ensures ExpenseStep(descKey, f, u, e).1.Some? ==>
      RunExpense(descKey, f, u, [e]).1 == [ExpenseStep(descKey, f, u, e).1.value]
  {
    assert [e][1..] == [];
  }

  /** A step that makes no call passes the run on to the next stage. */
  lemma RunSilentStep(descKey: string, f: ExpenseForm, u: int, events: seq<Event>)
    requires |events| > 0 && ExpenseStep(descKey, f, u, events[0]).1.None?
    ensures RunExpense(descKey, f, u, events) ==
      RunExpense(descKey, ExpenseStep(descKey, f, u, events[0]).0, u, events[1..])
  {
    var rest := RunExpense(descKey, ExpenseStep(descKey, f, u, events[0]).0, u, events[1..]);
    assert [] + rest.1 == rest.1;
  }

  /** A complete entry from the idle stage advances amount, category,
      description, date and back to idle, and makes exactly one call with
      the amount, the category id as text, the date and whatever the
      dictionary holds under the key the description is read from. */
  lemma {:induction false} ExpenseEntryRun(descKey: string, ud: UserData, u: int, amount: string,
                                           categoryId: int, description: string, date: string)
    requires descKey != AmountKey && descKey != CategoryIdKey && descKey != DateKey
    requires PlainText(amount) && PlainText(description) && IsIsoDate(date)
    ensures RunExpense(descKey, ExpenseForm(ExpenseIdle, ud), u, ExpenseEntry(amount, categoryId, description, date)).0.stage == ExpenseIdle
    ensures RunExpense(descKey, ExpenseForm(ExpenseIdle, ud), u, ExpenseEntry(amount, categoryId, description, date)).1 ==
      [ExpenseCall(u, Some(amount), Some(IntToString(categoryId)),
                   Get(ud[descKey := Some(description)], DescriptionKey), Some(date))]
  {
    var es := ExpenseEntry(amount, categoryId, description, date);
    ExpenseCategoryRoundTrip(categoryId);
    DateRoundTrip(date);
    var f0 := ExpenseForm(ExpenseIdle, ud);
    var f1 := ExpenseForm(Amount, ud);
    var ud2 := ud[AmountKey := Some(amount)];
    var ud3 := ud2[CategoryIdKey := Some(IntToString(categoryId))];
    var ud4 := ud3[descKey := Some(description)];
    var ud5 := ud4[DateKey := Some(date)];
    assert ExpenseStep(descKey, f0, u, es[0]) == (f1, None);
    assert ExpenseStep(descKey, f1, u, es[1]) == (ExpenseForm(ChooseCategory, ud2), None);
    assert StartsWith(es[2].data, ExpenseCategoryTag + "_");
    assert ExpenseStep(descKey, ExpenseForm(ChooseCategory, ud2), u, es[2]) == (ExpenseForm(Describe, ud3), None);
    assert ExpenseStep(descKey, ExpenseForm(Describe, ud3), u, es[3]) == (ExpenseForm(ChooseDate, ud4), None);
    assert StartsWith(es[4].data, DateTag + "_");
    var call := ExpenseCall(u, Some(amount), Some(IntToString(categoryId)), Get(ud4, DescriptionKey), Some(date));
    assert Get(ud5, DescriptionKey) == Get(ud4, DescriptionKey);
    assert ExpenseStep(descKey, ExpenseForm(ChooseDate, ud4), u, es[4]) == (ExpenseForm(ExpenseIdle, ud5), Some(call));
    var last := ExpenseForm(ExpenseIdle, ud5);
    RunOne(descKey, ExpenseForm(ChooseDate, ud4), u, es[4]);
    assert es[4..] == [es[4]];
    RunSilentStep(descKey, ExpenseForm(Describe, ud3), u, es[3..]);
    assert es[3..][1..] == es[4..];
    RunSilentStep(descKey, ExpenseForm(ChooseCategory, ud2), u, es[2..]);
    assert es[2..][1..] == es[3..];
    RunSilentStep(descKey, f1, u, es[1..]);
    assert es[1..][1..] == es[2..];
    RunSilentStep(descKey, f0, u, es);
  }

  /** Finding: as written, a complete entry by a user whose dictionary has
      no stored description passes no description, whatever was typed. */
  lemma ExpenseDescriptionLost(u: int, amount: string, categoryId: int, description: string, date: string)
    requires PlainText(amount) && PlainText(description) && IsIsoDate(date)
    ensures RunExpense(MisspeltDescriptionKey, ExpenseForm(ExpenseIdle, map[]), u, ExpenseEntry(amount, categoryId, description, date)).1 ==
      [ExpenseCall(u, Some(amount), Some(IntToString(categoryId)), None, Some(date))]
  {
    ExpenseEntryRun(MisspeltDescriptionKey, map[], u, amount, categoryId, description, date);
  }

  /** With the key corrected, the typed description is passed on. */
  lemma ExpenseDescriptionKept(ud: UserData, u: int, amount: string, categoryId: int, description: string, date: string)
    requires PlainText(amount) && PlainText(description) && IsIsoDate(date)
    ensures RunExpense(DescriptionKey, ExpenseForm(ExpenseIdle, ud), u, ExpenseEntry(amount, categoryId, description, date)).1 ==
      [ExpenseCall(u, Some(amount), Some(IntToString(categoryId)), Some(description), Some(date))]
  {
    ExpenseEntryRun(DescriptionKey, ud, u, amount, categoryId, description, date);
  }

  // ---------------------------------------------------------------------
  // The registration form

  datatype RegistrationStage = RegistrationIdle | FirstName | LastName | Email

  const FirstNameKey := "first_name"
  const LastNameKey := "last_name"
  const EmailKey := "email"

  datatype RegistrationForm = RegistrationForm(stage: RegistrationStage, data: UserData)

  /** One update of the registration form. The last step calls
      `create_user` with the chat's ids; when that raises, the exception
      leaves the handler before it returns, so the stage stays at the email
      step (the dictionary write before the call has happened). */
  function RegistrationStep(db: Db, f: RegistrationForm, u: int, chat: int, e: Event): (r: (RegistrationForm, Db))
    ensures r.1 != db ==>
      f.stage == Email && e.Message? && r.0.stage == RegistrationIdle
      && Users.CreateUser(db, Some(e.text), u, Some(chat), Get(f.data, FirstNameKey), Get(f.data, LastNameKey)).0.Ok?
      && r.1 == Users.CreateUser(db, Some(e.text), u, Some(chat), Get(f.data, FirstNameKey), Get(f.data, LastNameKey)).1
    ensures f.stage == LastName && EmailKey in f.data && e.Message? && PlainText(e.text) ==>
      r == (RegistrationForm(LastName, f.data[EmailKey := Some(e.text)]), db)
    ensures f.stage == LastName && EmailKey !in f.data && e.Message? && PlainText(e.text) ==>
      r == (RegistrationForm(Email, f.data[LastNameKey := Some(e.text)][EmailKey := None]), db)
  {
    var ud := f.data;
    if f.stage == RegistrationIdle && e.Press? && Handlers.Matches(Handlers.Exact("register_user"), e.data) then
      (RegistrationForm(FirstName, ud), db)
    else if f.stage == FirstName && e.Message? && PlainText(e.text) then
      (RegistrationForm(LastName, ud[FirstNameKey := Some(e.text)]), db)
    else if f.stage == LastName && e.Message? && PlainText(e.text) then
      if EmailKey in ud then
        (RegistrationForm(LastName, ud[EmailKey := Some(e.text)]), db)
      else
        (RegistrationForm(Email, ud[LastNameKey := Some(e.text)][EmailKey := None]), db)
    else if f.stage == Email && e.Message? && PlainText(e.text) then
      var ud1 := ud[EmailKey := Some(e.text)];
      var (created, db1) := Users.CreateUser(db, Get(ud1, EmailKey), u, Some(chat), Get(ud1, FirstNameKey), Get(ud1, LastNameKey));
      if created.Ok? then (RegistrationForm(RegistrationIdle, ud1), db1)
      else (RegistrationForm(Email, ud1), db)
    else if f.stage != RegistrationIdle && IsCancel(e) then
      (RegistrationForm(RegistrationIdle, map[]), db)
    else
      (f, db)
  }

  /** A fresh registration: register button, first name, last name, email.
      With nothing stored under `email` and a new, non-clashing user, the
      form ends idle and the user is created with exactly those fields. */
  lemma FreshRegistration(db: Db, ud: UserData, u: int, chat: int, first: string, last: string, email: string)
    requires EmailKey !in ud
    requires PlainText(first) && PlainText(last) && PlainText(email)
    requires !Users.Registered(db.users, u) && !Users.ClashesWith(db.users, Some(email), chat)
    ensures var f1 := RegistrationStep(db, RegistrationForm(RegistrationIdle, ud), u, chat, Press("register_user")).0;
            var f2 := RegistrationStep(db, f1, u, chat, Message(first)).0;
            var f3 := RegistrationStep(db, f2, u, chat, Message(last)).0;
            var r := RegistrationStep(db, f3, u, chat, Message(email));
            r.0.stage == RegistrationIdle
            && r.1 == db.(users := db.users + [User(db.nextUserId, Some(first), Some(last), Some(email), u, chat)],
                          nextUserId := db.nextUserId + 1)
  {
  }

  /** Once a registration has stored an email, a later registration in the
      same session never leaves the last-name step: every text typed there
      overwrites the stored email and nothing is created. */
  lemma SecondRegistrationStalls(db: Db, f: RegistrationForm, u: int, chat: int, t: string)
    requires f.stage == LastName && EmailKey in f.data && PlainText(t)
    ensures RegistrationStep(db, f, u, chat, Message(t)).0.stage == LastName
    ensures EmailKey in RegistrationStep(db, f, u, chat, Message(t)).0.data
    ensures RegistrationStep(db, f, u, chat, Message(t)).1 == db
  {
  }

  /** A completed registration leaves `email` stored, which is what makes
      the next attempt stall. */
  lemma CompletedRegistrationKeepsEmail(db: Db, f: RegistrationForm, u: int, chat: int, e: Event)
    requires RegistrationStep(db, f, u, chat, e).1 != db
    ensures EmailKey in RegistrationStep(db, f, u, chat, e).0.data
    ensures Users.Registered(RegistrationStep(db, f, u, chat, e).1.users, u)
  {
  }

  // ---------------------------------------------------------------------
  // The spreadsheet form

  datatype SheetStage = SheetIdle | SheetLink | SheetName

  const SpreadsheetIdKey := "spreadsheet_id"
  /** The key `complete_spreadsheetcreation` writes the name under. */
  const SpreadsheetNameKey := "spreadsheet_name"
  /** The key it reads the name back from. */
  const SheetNameKey := "sheet_name"
  const MaxSheetNameLength := 15

  /** The arguments handed to `add_basicinfo`. */
  datatype BasicInfoCall = BasicInfoCall(userId: int, spreadsheetId: Option<string>, sheetName: Option<string>)

  datatype SheetForm = SheetForm(stage: SheetStage, data: UserData)

  /** One update of the spreadsheet form, reading the sheet name back from
      `nameKey`. A name over 15 characters keeps the form at the name step;
      the id step ends the form only if no id can be extracted. */
  function SheetStep(nameKey: string, f: SheetForm, u: int, e: Event): (r: (SheetForm, Option<BasicInfoCall>))
    ensures r.1.Some? ==> f.stage == SheetName && e.Message? && |e.text| <= MaxSheetNameLength
    ensures r.1.Some? ==> r.1.value.spreadsheetId == Get(f.data, SpreadsheetIdKey) && r.1.value.userId == u
    ensures r.1.Some? ==> r.1.value.sheetName == Get(f.data[SpreadsheetNameKey := Some(e.text)], nameKey)
    ensures f.stage == SheetName && e.Message? && PlainText(e.text) && |e.text| > MaxSheetNameLength ==>
      r.0.stage == SheetName && r.1.None?
    ensures f.stage == SheetLink && e.Message? && PlainText(e.text) ==>
      r.0.stage == SheetName && Get(r.0.data, SpreadsheetIdKey) == Sheets.ExtractSpreadsheetId(e.text)
  {
    var ud := f.data;
    if f.stage == SheetIdle && e.Press? && Handlers.Matches(Handlers.Exact("connect_gsheet"), e.data) then
      (SheetForm(SheetLink, ud), None)
    else if f.stage == SheetLink && e.Message? && PlainText(e.text) then
      match Sheets.ExtractSpreadsheetId(e.text)
      case None => (SheetForm(SheetIdle, ud), None)
      case Some(id) => (SheetForm(SheetName, ud[SpreadsheetIdKey := Some(id)]), None)
    else if f.stage == SheetName && e.Message? && PlainText(e.text) then
      var ud1 := ud[SpreadsheetNameKey := Some(e.text)];
      if |e.text| > MaxSheetNameLength then (SheetForm(SheetName, ud1), None)
      else (SheetForm(SheetIdle, ud1), Some(BasicInfoCall(u, Get(ud1, SpreadsheetIdKey), Get(ud1, nameKey))))
    else if f.stage != SheetIdle && IsCancel(e) then
      (SheetForm(SheetIdle, map[]), None)
    else
      (f, None)
  }

  /** The form as written reads the name from `sheet_name`. */
  function SheetStepAsWritten(f: SheetForm, u: int, e: Event): (r: (SheetForm, Option<BasicInfoCall>))
    ensures r.1.Some? ==> r.1.value.sheetName == Get(f.data, SheetNameKey)
  {
    SheetStep(SheetNameKey, f, u, e)
  }

  /** The form as evidently intended reads it from where it was written. */
  function SheetStepCorrected(f: SheetForm, u: int, e: Event): (r: (SheetForm, Option<BasicInfoCall>))
    ensures r.1.Some? ==> e.Message? && r.1.value.sheetName == Some(e.text)
  {
    SheetStep(SpreadsheetNameKey, f, u, e)
  }

  /** Finding: as written, a complete spreadsheet setup with nothing under
      `sheet_name` passes no sheet name, whatever was typed. */
  lemma SheetNameLost(u: int, link: string, name: string)
    requires PlainText(link) && PlainText(name) && |name| <= MaxSheetNameLength
    ensures var f1 := SheetStepAsWritten(SheetForm(SheetIdle, map[]), u, Press("connect_gsheet")).0;
            var f2 := SheetStepAsWritten(f1, u, Message(link)).0;
            SheetStepAsWritten(f2, u, Message(name)).1 ==
              Some(BasicInfoCall(u, Sheets.ExtractSpreadsheetId(link), None))
  {
  }

  /** With the key corrected, the typed name is passed on together with the
      id extracted from the link. */
  lemma SheetNameKept(ud: UserData, u: int, link: string, name: string)
    requires PlainText(link) && PlainText(name) && |name| <= MaxSheetNameLength
    ensures var f1 := SheetStepCorrected(SheetForm(SheetIdle, ud), u, Press("connect_gsheet")).0;
            var f2 := SheetStepCorrected(f1, u, Message(link)).0;
            SheetStepCorrected(f2, u, Message(name)).1 ==
              Some(BasicInfoCall(u, Sheets.ExtractSpreadsheetId(link), Some(name)))
  {
  }
}

=== FILE: gsheet.dfy ===
/** `extract_spreadsheet_id` of app/gsheet.py: what the user types when
    asked for a spreadsheet is either a Google Sheets link, from which the
    longest '/'-separated segment is taken as the id, or the id itself. */
module Sheets {
  import opened Base
  import opened Text

  /** The substring that marks the input as a link. */
  const LinkMarker := "docs.google.com/spreadsheets"

  /** Python's `max(parts, key=len)`: the index of the longest piece, the
      earliest one when several are equally long. */
  function LongestIndex(parts: seq<string>): (k: nat)
    requires |parts| >= 1
    ensures k < |parts|
    ensures forall j :: 0 <= j < |parts| ==> |parts[j]| <= |parts[k]|
    ensures forall j :: 0 <= j < k ==> |parts[j]| < |parts[k]|
  {
    if |parts| == 1 then 0
    else
      var k := LongestIndex(parts[..|parts| - 1]);
      if |parts[|parts| - 1]| > |parts[k]| then |parts| - 1 else k
  }

  /** `extract_spreadsheet_id`. The source's `except` branch, which would
      return `None`, cannot be reached for a string, so the result is
      always present. */
  function ExtractSpreadsheetId(s: string): (r: Option<string>)
    ensures r.Some?
    ensures !Contains(s, LinkMarker) ==> r.value == s
    ensures Contains(s, LinkMarker) ==>
      r.value in Split(s, '/') && '/' !in r.value
    ensures Contains(s, LinkMarker) ==>
      forall j :: 0 <= j < |Split(s, '/')| ==> |Split(s, '/')[j]| <= |r.value|
    ensures Contains(s, LinkMarker) ==>
      exists k :: 0 <= k < |Split(s, '/')| && Split(s, '/')[k] == r.value
        && forall j :: 0 <= j < k ==> |Split(s, '/')[j]| < |r.value|
  {
    if Contains(s, LinkMarker) then
      var parts := Split(s, '/');
      Some(parts[LongestIndex(parts)])
    else
      Some(s)
  }

  /** A string without '/' cannot hold the link marker, whose sixteenth
      character is '/'. */
  lemma NoSlashMeansNoLink(s: string)
    requires '/' !in s
    ensures !Contains(s, LinkMarker)
  {
    forall i | 0 <= i <= |s| - |LinkMarker|
      ensures !OccursAt(s, LinkMarker, i)
    {
      assert s[i + 15] != '/';
      assert s[i..i + |LinkMarker|][15] != LinkMarker[15];
    }
  }

  /** Extracting from an extracted id gives it back unchanged: pasting the
      id alone is the same as pasting the link. */
  lemma ExtractIsIdempotent(s: string)
    ensures ExtractSpreadsheetId(ExtractSpreadsheetId(s).value) == ExtractSpreadsheetId(s)
  {
    var id := ExtractSpreadsheetId(s).value;
    if Contains(s, LinkMarker) {
      NoSlashMeansNoLink(id);
    }
  }

  /** A link made of '/'-free segments yields its strictly longest segment. */
  lemma LinkYieldsLongestSegment(parts: seq<string>, k: nat)
    requires k < |parts|
    requires forall i :: 0 <= i < |parts| ==> '/' !in parts[i]
    requires forall j :: 0 <= j < |parts| && j != k ==> |parts[j]| < |parts[k]|
    requires Contains(Join('/', parts), LinkMarker)
    ensures ExtractSpreadsheetId(Join('/', parts)) == Some(parts[k])
  {
    SplitJoin(parts, '/');
    assert LongestIndex(parts) == k;
  }
}

=== FILE: legacy_categories.dfy ===
/** The earlier category service, categories.py at the repository root.
    It answers with strings instead of raising, caps a user at 10 active
    categories, addresses rows by name rather than by id, and swallows
    database errors into fixed error strings (or 0 for the count). Rows
    have the shape of app/models.py. */
module LegacyCategories {
  import opened Base
  import opened Text
  import opened Query
  import opened Models
  import Categories

  const MaxActiveCategories := 10

  const QuotaMessage := "Maximum number of categories reached"
  const DuplicateMessage := "This Category already exists"
  const DeletedMessage := "Category deleted successfully"
  const NotFoundMessage := "Category not found"
  const DeleteErrorMessage := "Error deleting category"
  const DeactivatedMessage := "Category deactivated successfully"
  const DeactivateErrorMessage := "Error deactivating category"
  const ReactivatedMessage := "Category reactivated successfully"
  const ReactivateErrorMessage := "Error reactivating category"

  /** What `add_category` returns: the new row, a refusal string, or
      `None` after a database error. */
  datatype AddOutcome = Added(category: Category) | Refused(message: string) | NoneReturned

  /** `count_active_categories`: the length of the user's active listing,
      or 0 when the database raises. */
  function CountActiveCategories(cats: seq<Category>, u: int, store: Store): (n: nat)
    ensures store.Healthy? ==> n == |Categories.GetCategories(cats, u, 1)|
    ensures store.Raises? ==> n == 0
  {
    if store.Raises? then 0
    else
      Categories.ActiveCountIsActiveListing(cats, u);
      Count(cats, Categories.ActiveOf(u))
  }

  /** `add_category`. The count runs in a session of its own (`countStore`),
      and a failing count reads as 0, so the quota is then skipped. Only
      after the quota does the name query run in the function's own
      session (`store`), whose failure makes the function return `None`. */
  function AddCategory(db: Db, u: int, name: string, description: Option<string>,
                       countStore: Store, store: Store): (r: (AddOutcome, Db))
    ensures CountActiveCategories(db.categories, u, countStore) >= MaxActiveCategories ==>
      r == (Refused(QuotaMessage), db)
    ensures CountActiveCategories(db.categories, u, countStore) < MaxActiveCategories && store.Raises? ==>
      r == (NoneReturned, db)
    ensures (store.Healthy? && CountActiveCategories(db.categories, u, countStore) < MaxActiveCategories
             && Categories.HasNamed(db.categories, u, name)) ==> r == (Refused(DuplicateMessage), db)
    ensures r.0.Added? <==>
      (store.Healthy? && CountActiveCategories(db.categories, u, countStore) < MaxActiveCategories
       && !Categories.HasNamed(db.categories, u, name))
    ensures countStore.Raises? && store.Healthy? && !Categories.HasNamed(db.categories, u, name) ==>
      r.0.Added?
    ensures r.0.Added? ==> r.0.category == Category(db.nextCategoryId, u, name, description, true)
    ensures r.0.Added? ==>
      r.1 == db.(categories := db.categories + [r.0.category], nextCategoryId := db.nextCategoryId + 1)
  {
    if CountActiveCategories(db.categories, u, countStore) >= MaxActiveCategories then
      (Refused(QuotaMessage), db)
    else if store.Raises? then
      (NoneReturned, db)
    else
      match First(db.categories, Categories.NamedFor(u, name))
      case None =>
        var row := Category(db.nextCategoryId, u, name, description, true);
        (Added(row), db.(categories := db.categories + [row], nextCategoryId := db.nextCategoryId + 1))
      case Some(_) => (Refused(DuplicateMessage), db)
  }

  /** `delete_category`: removes the user's first row whose name matches
      ignoring case. */
  function DeleteCategory(db: Db, u: int, name: string, store: Store): (r: (string, Db))
    ensures store.Raises? ==> r == (DeleteErrorMessage, db)
    ensures store.Healthy? ==> (r.0 == DeletedMessage <==> Categories.HasNamed(db.categories, u, name))
    ensures store.Healthy? && r.0 != DeletedMessage ==> r == (NotFoundMessage, db)
    ensures r.0 == DeletedMessage ==>
      exists i :: 0 <= i < |db.categories| && db.categories[i].userId == u
        && SameName(db.categories[i].name, name)
        && (forall j :: 0 <= j < i ==> !(db.categories[j].userId == u && SameName(db.categories[j].name, name)))
        && r.1 == db.(categories := RemoveAt(db.categories, i))
  {
    if store.Raises? then (DeleteErrorMessage, db)
    else
      match First(db.categories, Categories.NamedFor(u, name))
      case None => (NotFoundMessage, db)
      case Some(i) => (DeletedMessage, db.(categories := RemoveAt(db.categories, i)))
  }

  /** The row update shared by `deactivate_category` and
      `reactivate_category`: the first row of the user whose name matches
      gets the flag, or `None` when there is none. */
  function SetActiveByName(cats: seq<Category>, u: int, name: string, active: bool): (r: Option<seq<Category>>)
    ensures r.None? <==> !Categories.HasNamed(cats, u, name)
    ensures r.Some? ==>
      exists i :: 0 <= i < |cats| && cats[i].userId == u && SameName(cats[i].name, name)
        && (forall j :: 0 <= j < i ==> !(cats[j].userId == u && SameName(cats[j].name, name)))
        && r.value == cats[i := cats[i].(active := active)]
  {
    match First(cats, Categories.NamedFor(u, name))
    case None => None
    case Some(i) => Some(cats[i := cats[i].(active := active)])
  }

  /** `deactivate_category`. */
  function DeactivateCategory(db: Db, u: int, name: string, store: Store): (r: (string, Db))
    ensures store.Raises? ==> r == (DeactivateErrorMessage, db)
    ensures store.Healthy? && !Categories.HasNamed(db.categories, u, name) ==> r == (NotFoundMessage, db)
    ensures store.Healthy? && Categories.HasNamed(db.categories, u, name) ==>
      r.0 == DeactivatedMessage &&
      exists i :: 0 <= i < |db.categories| && db.categories[i].userId == u
        && SameName(db.categories[i].name, name)
        && r.1 == db.(categories := db.categories[i := db.categories[i].(active := false)])
  {
    if store.Raises? then (DeactivateErrorMessage, db)
    else
      match SetActiveByName(db.categories, u, name, false)
      case None => (NotFoundMessage, db)
      case Some(cats) => (DeactivatedMessage, db.(categories := cats))
  }

  /** `reactivate_category`; like the current revision it does not consult
      the quota. */
  function ReactivateCategory(db: Db, u: int, name: string, store: Store): (r: (string, Db))
    ensures store.Raises? ==> r == (ReactivateErrorMessage, db)
    ensures store.Healthy? && !Categories.HasNamed(db.categories, u, name) ==> r == (NotFoundMessage, db)
    ensures store.Healthy? && Categories.HasNamed(db.categories, u, name) ==>
      r.0 == ReactivatedMessage &&
      exists i :: 0 <= i < |db.categories| && db.categories[i].userId == u
        && SameName(db.categories[i].name, name)
        && r.1 == db.(categories := db.categories[i := db.categories[i].(active := true)])
  {
    if store.Raises? then (ReactivateErrorMessage, db)
    else
      match SetActiveByName(db.categories, u, name, true)
      case None => (NotFoundMessage, db)
      case Some(cats) => (ReactivatedMessage, db.(categories := cats))
  }

  // ---------------------------------------------------------------------
  // Relations between the two revisions

  /** Below ten active categories both revisions accept or refuse the same
      name and leave the same tables behind. */
  lemma AddAgreesBelowLegacyQuota(db: Db, u: int, name: string, description: Option<string>)
    requires Categories.CountActiveCategories(db.categories, u) < MaxActiveCategories
    ensures AddCategory(db, u, name, description, Healthy, Healthy).0.Added? <==>
      Categories.AddCategory(db, u, name, description).0.Ok?
    ensures AddCategory(db, u, name, description, Healthy, Healthy).1 ==
      Categories.AddCategory(db, u, name, description).1
  {
    Categories.ActiveCountIsActiveListing(db.categories, u);
  }

  /** Between ten and nineteen active categories the revisions disagree: the
      earlier one refuses with the quota message, the current one adds. */
  lemma QuotaDiffersBetweenRevisions(db: Db, u: int, name: string, description: Option<string>)
    requires MaxActiveCategories <= Categories.CountActiveCategories(db.categories, u) < Categories.MaxActiveCategories
    requires !Categories.HasNamed(db.categories, u, name)
    ensures AddCategory(db, u, name, description, Healthy, Healthy) == (Refused(QuotaMessage), db)
    ensures Categories.AddCategory(db, u, name, description).0 == Ok(true)
  {
    Categories.ActiveCountIsActiveListing(db.categories, u);
  }

  /** A count whose session fails reads as zero, so with a healthy name
      query a new name is added however many categories are active: the
      quota holds only while the count's session works. */
  lemma FailedCountSkipsQuota(db: Db, u: int, name: string, description: Option<string>, error: string)
    requires !Categories.HasNamed(db.categories, u, name)
    ensures AddCategory(db, u, name, description, Raises(error), Healthy).0 ==
      Added(Category(db.nextCategoryId, u, name, description, true))
    ensures |Categories.GetCategories(AddCategory(db, u, name, description, Raises(error), Healthy).1.categories, u, 1)| ==
      |Categories.GetCategories(db.categories, u, 1)| + 1
  {
    var row := Category(db.nextCategoryId, u, name, description, true);
    var cats1 := db.categories + [row];
    assert AddCategory(db, u, name, description, Raises(error), Healthy).1.categories == cats1;
    Categories.ActiveCountIsActiveListing(db.categories, u);
    Categories.ActiveCountIsActiveListing(cats1, u);
    CountAppend(db.categories, row, Categories.ActiveOf(u));
  }

  /** On a healthy database both revisions delete the same row. */
  lemma DeleteAgreesAcrossRevisions(db: Db, u: int, name: string)
    ensures DeleteCategory(db, u, name, Healthy) == Categories.DeleteCategory(db, u, name)
  {
  }

  /** Flipping the flag of the first row a name finds leaves it the first
      row that name finds. */
  lemma FlagFlipKeepsFirst(cats: seq<Category>, u: int, name: string, i: nat, active: bool)
    requires First(cats, Categories.NamedFor(u, name)) == Some(i)
    ensures First(cats[i := cats[i].(active := active)], Categories.NamedFor(u, name)) == Some(i)
  {
    var cats1 := cats[i := cats[i].(active := active)];
    assert forall j :: 0 <= j < |cats| ==>
      (Categories.NamedFor(u, name)(cats1[j]) <==> Categories.NamedFor(u, name)(cats[j]));
  }

  /** Deactivating and reactivating by name restores the table when the
      named row was active. */
  lemma DeactivateThenReactivateByName(db: Db, u: int, name: string)
    requires Categories.HasNamed(db.categories, u, name)
    requires forall c :: c in db.categories && c.userId == u && SameName(c.name, name) ==> c.active
    ensures ReactivateCategory(DeactivateCategory(db, u, name, Healthy).1, u, name, Healthy) == (ReactivatedMessage, db)
  {
    var cats := db.categories;
    var i := First(cats, Categories.NamedFor(u, name)).value;
    var cats1 := cats[i := cats[i].(active := false)];
    FlagFlipKeepsFirst(cats, u, name, i, false);
    assert SetActiveByName(cats, u, name, false) == Some(cats1);
    assert DeactivateCategory(db, u, name, Healthy).1 == db.(categories := cats1);
    assert SetActiveByName(cats1, u, name, true) == Some(cats1[i := cats1[i].(active := true)]);
    assert cats[i] in cats;
    assert cats1[i := cats1[i].(active := true)] == cats;
  }
}

=== FILE: models.dfy ===
/** The records of app/models.py held in memory: each table is a sequence
    of rows in insertion order, and each auto-increment primary key is a
    counter in the database state. */
module Models {
  import opened Base

  /** A row of `users`. `telegram_id` and `chat_id` are NOT NULL and unique. */
  datatype User = User(
    id: int,
    firstName: Option<string>,
    lastName: Option<string>,
    email: Option<string>,
    telegramId: int,
    chatId: int)

  /** A row of `categories`; `active` defaults to true on insert. */
  datatype Category = Category(
    id: int,
    userId: int,
    name: string,
    description: Option<string>,
    active: bool)

  /** A row of `expenses`. The amount is kept as an opaque integer and the
      creation time as a given clock reading. */
  datatype Expense = Expense(
    id: int,
    amount: int,
    userId: int,
    categoryId: int,
    description: Option<string>,
    date: string,
    createdAt: int)

  /** The three tables with the next value of each auto-increment key. */
  datatype Db = Db(
    users: seq<User>,
    categories: seq<Category>,
    expenses: seq<Expense>,
    nextUserId: int,
    nextCategoryId: int,
    nextExpenseId: int)

  predicate UserKeys(users: seq<User>, next: int) {
    && (forall i :: 0 <= i < |users| ==> users[i].id < next)
    && (forall i, j :: 0 <= i < j < |users| ==> users[i].id != users[j].id)
  }

  predicate CategoryKeys(categories: seq<Category>, next: int) {
    && (forall i :: 0 <= i < |categories| ==> categories[i].id < next)
    && (forall i, j :: 0 <= i < j < |categories| ==> categories[i].id != categories[j].id)
  }

  predicate ExpenseKeys(expenses: seq<Expense>, next: int) {
    && (forall i :: 0 <= i < |expenses| ==> expenses[i].id < next)
    && (forall i, j :: 0 <= i < j < |expenses| ==> expenses[i].id != expenses[j].id)
  }

  /** The unique constraints of the `users` table (app/models.py:28-30). */
  predicate UserColumnsUnique(users: seq<User>) {
    forall i, j :: 0 <= i < j < |users| ==>
      && users[i].telegramId != users[j].telegramId
      && users[i].chatId != users[j].chatId
      && (users[i].email.Some? ==> users[i].email != users[j].email)
  }

  /** What the database guarantees: primary keys are unique and below the
      next auto-increment value, and the unique columns hold. */
  predicate Valid(db: Db) {
    && UserKeys(db.users, db.nextUserId)
    && CategoryKeys(db.categories, db.nextCategoryId)
    && ExpenseKeys(db.expenses, db.nextExpenseId)
    && UserColumnsUnique(db.users)
  }
}

=== FILE: polling_bot.dfy ===
/** The earlier polling bot of main.py. Unregistered users are walked
    through a three-message registration whose progress lives in one
    module-level dictionary, `USER_STATE`: the stage under the user's id and
    the first name, between two messages, under the text key
    `str(user_id) + '_name'`. Registration itself goes to the auth module,
    seen here only as the set of registered ids with the names stored. */
module PollingBot {
  import opened Base
  import opened Text

  /** A key of `USER_STATE`: Python keeps the integer ids and the text keys
      apart, since an int never equals a str. */
  datatype Key = UserKey(id: int) | TextKey(text: string)

  type States = map<Key, Option<string>>

  /** What auth.py stores per registered id: name and surname. */
  type Registry = map<int, (Option<string>, Option<string>)>

  const AskName := "ask_name"
  const AskSurname := "ask_surname"
  const WelcomeText := "Welcome, please enter your name."
  const AskSurnameText := "Please enter your surname."
  const RegisteredText := "Registration successful."

  /** The key holding a user's first name between the second and third message. */
  function NameKey(u: int): Key {
    TextKey(IntToString(u) + "_name")
  }

  /** `get_user_state`: the stage, `None` for a user with no entry. */
  function GetUserState(states: States, u: int): (r: Option<string>)
    ensures UserKey(u) !in states ==> r.None?
    ensures UserKey(u) in states ==> r == states[UserKey(u)]
  {
    if UserKey(u) in states then states[UserKey(u)] else None
  }

  /** `set_user_state`: only the user's own entry changes. */
  function SetUserState(states: States, u: int, stage: Option<string>): (r: States)
    ensures GetUserState(r, u) == stage
    ensures forall k :: k != UserKey(u) ==> (k in r <==> k in states)
    ensures forall k :: k != UserKey(u) && k in states ==> r[k] == states[k]
  {
    states[UserKey(u) := stage]
  }

  /** How `handle_message` answers: a text, the main menu (`echo_all`) for
      a registered user, nothing when the stored stage is none of the three,
      or a crash (the KeyError of `pop` when the name is missing, or the
      error `register_user` raises). `HandleMessage` describes the handler
      alone; what a crash does to the running bot is `PollMessage`. */
  datatype Reply = Sent(text: string) | Menu | NoReply | Crashed

  datatype Outcome = Outcome(reply: Reply, states: States, registry: Registry)

  /** `handle_message` for a message from `u` with the given text.
      `registerOk` says whether `auth.register_user` returns normally; the
      name is popped before that call and the stage is reset only after
      it, so a raising registration leaves the stage at "ask_surname" with
      the name gone. */
  function HandleMessage(states: States, registry: Registry, u: int, text: Option<string>, registerOk: bool): (r: Outcome)
    ensures u in registry ==> r == Outcome(Menu, states, registry)
    ensures u !in registry && GetUserState(states, u).None? ==>
      r == Outcome(Sent(WelcomeText), SetUserState(states, u, Some(AskName)), registry)
    ensures u !in registry && GetUserState(states, u) == Some(AskName) ==>
      r.reply == Sent(AskSurnameText) && r.registry == registry
      && GetUserState(r.states, u) == Some(AskSurname) && NameKey(u) in r.states && r.states[NameKey(u)] == text
    ensures u !in registry && GetUserState(states, u) == Some(AskSurname) && NameKey(u) in states && registerOk ==>
      r.reply == Sent(RegisteredText) && r.registry == registry[u := (states[NameKey(u)], text)]
      && GetUserState(r.states, u).None? && NameKey(u) !in r.states
    ensures u !in registry && GetUserState(states, u) == Some(AskSurname) && NameKey(u) in states && !registerOk ==>
      r == Outcome(Crashed, states - {NameKey(u)}, registry)
    ensures u !in registry && GetUserState(states, u) == Some(AskSurname) && NameKey(u) !in states ==>
      r == Outcome(Crashed, states, registry)
    ensures forall k :: k != UserKey(u) && k != NameKey(u) ==>
      (k in r.states <==> k in states) && (k in states ==> r.states[k] == states[k])
    ensures forall v :: v != u ==> (v in r.registry <==> v in registry) && (v in registry ==> r.registry[v] == registry[v])
  {
    if u in registry then
      Outcome(Menu, states, registry)
    else
      match GetUserState(states, u)
      case None =>
        Outcome(Sent(WelcomeText), SetUserState(states, u, Some(AskName)), registry)
      case Some(stage) =>
        if stage == AskName then
          var s1 := SetUserState(states, u, Some(AskSurname));
          Outcome(Sent(AskSurnameText), s1[NameKey(u) := text], registry)
        else if stage == AskSurname then
          if NameKey(u) !in states then
            Outcome(Crashed, states, registry)
          else
            var name := states[NameKey(u)];
            var s1 := states - {NameKey(u)};
            if !registerOk then Outcome(Crashed, s1, registry)
            else Outcome(Sent(RegisteredText), SetUserState(s1, u, None), registry[u := (name, text)])
        else
          Outcome(NoReply, states, registry)
  }

  // ---------------------------------------------------------------------
  // Lemmas

  /** Three messages from a new user: the first is answered with the
      welcome, the second is kept as the name, the third completes the
      registration with that name and the third text as surname; the stage
      and the temporary key are gone afterwards. */
  lemma ThreeMessageRegistration(states: States, registry: Registry, u: int,
                                 greeting: Option<string>, name: Option<string>, surname: Option<string>)
    requires u !in registry && GetUserState(states, u).None?
    ensures var o1 := HandleMessage(states, registry, u, greeting, true);
            var o2 := HandleMessage(o1.states, o1.registry, u, name, true);
            var o3 := HandleMessage(o2.states, o2.registry, u, surname, true);
            o3.reply == Sent(RegisteredText)
            && o3.registry == registry[u := (name, surname)]
            && GetUserState(o3.states, u).None?
            && NameKey(u) !in o3.states
  {
    var o1 := HandleMessage(states, registry, u, greeting, true);
    assert GetUserState(o1.states, u) == Some(AskName);
    var o2 := HandleMessage(o1.states, o1.registry, u, name, true);
    assert GetUserState(o2.states, u) == Some(AskSurname);
    assert o2.states[NameKey(u)] == name;
  }

  /** A user's messages never touch another user's stage or stored name:
      the text keys of two different ids differ. */
  lemma OtherUsersUntouched(states: States, registry: Registry, u: int, v: int, text: Option<string>, registerOk: bool)
    requires u != v
    ensures GetUserState(HandleMessage(states, registry, u, text, registerOk).states, v) == GetUserState(states, v)
    ensures NameKey(v) in HandleMessage(states, registry, u, text, registerOk).states <==> NameKey(v) in states
    ensures NameKey(v) in states ==> HandleMessage(states, registry, u, text, registerOk).states[NameKey(v)] == states[NameKey(v)]
  {
    if NameKey(v) == NameKey(u) {
      assert IntToString(v) + "_name" == IntToString(u) + "_name";
      assert IntToString(v) == (IntToString(v) + "_name")[..|IntToString(v)|];
      assert |IntToString(v)| == |IntToString(u)|;
      assert IntToString(u) == (IntToString(u) + "_name")[..|IntToString(u)|];
      IntToStringInjective(v, u);
    }
  }

  /** When the registration call raises at the third message, the handler
      leaves the user at "ask_surname" with no stored name, and the handler
      run again on that state crashes on the missing key and changes
      nothing. In the running bot that state does not survive: see
      `FailedRegistrationRestarts`. */
  lemma FailedRegistrationStaysBroken(states: States, registry: Registry, u: int,
                                      surname: Option<string>, later: Option<string>, registerOk: bool)
    requires u !in registry && GetUserState(states, u) == Some(AskSurname) && NameKey(u) in states
    ensures var o := HandleMessage(states, registry, u, surname, false);
            o.reply == Crashed
            && HandleMessage(o.states, o.registry, u, later, registerOk) == Outcome(Crashed, o.states, o.registry)
  {
    var o := HandleMessage(states, registry, u, surname, false);
    assert GetUserState(o.states, u) == Some(AskSurname);
    assert NameKey(u) !in o.states;
  }

  // ---------------------------------------------------------------------
  // The polling loop

  /** One message delivered by `bot.polling()`. The bot is built without an
      exception handler and polls with `non_stop` off, so an exception from
      `handle_message` ends the script. Started again, the module rebuilds
      `USER_STATE` empty, while the registry, kept in the auth database,
      survives. */
  function PollMessage(states: States, registry: Registry, u: int, text: Option<string>, registerOk: bool): (r: Outcome)
    ensures r.reply == HandleMessage(states, registry, u, text, registerOk).reply
    ensures r.reply == Crashed ==> r.states == map[] && r.registry == registry
    ensures r.reply != Crashed ==> r == HandleMessage(states, registry, u, text, registerOk)
  {
    var o := HandleMessage(states, registry, u, text, registerOk);
    if o.reply == Crashed then Outcome(Crashed, map[], o.registry) else o
  }

  /** A raising registration ends the bot; after the restart the same user
      is not registered and is welcomed again from the start, whatever they
      send. */
  lemma FailedRegistrationRestarts(states: States, registry: Registry, u: int,
                                   surname: Option<string>, later: Option<string>, registerOk: bool)
    requires u !in registry && GetUserState(states, u) == Some(AskSurname) && NameKey(u) in states
    ensures var o := PollMessage(states, registry, u, surname, false);
            o == Outcome(Crashed, map[], registry)
            && PollMessage(o.states, o.registry, u, later, registerOk)
               == Outcome(Sent(WelcomeText), map[UserKey(u) := Some(AskName)], registry)
  {
    var o := PollMessage(states, registry, u, surname, false);
    assert o.registry == registry;
    assert GetUserState(o.states, u).None?;
  }

  /** A crash on one user's message loses every user's progress: any
      unregistered user's next message is answered with the welcome. */
  lemma CrashRestartsEveryRegistration(states: States, registry: Registry, u: int, text: Option<string>,
                                       registerOk: bool, v: int, later: Option<string>, laterOk: bool)
    requires HandleMessage(states, registry, u, text, registerOk).reply == Crashed
    requires v !in registry
    ensures var o := PollMessage(states, registry, u, text, registerOk);
            PollMessage(o.states, o.registry, v, later, laterOk).reply == Sent(WelcomeText)
  {
    var o := PollMessage(states, registry, u, text, registerOk);
    assert v !in o.registry;
    assert GetUserState(o.states, v).None?;
  }

  // ---------------------------------------------------------------------
  // The callback dispatch table

  datatype CallbackHandler = AddExpense | DeleteLastExpense | GetStatistics

  /** `callback_handlers`. */
  const CallbackHandlers: map<string, CallbackHandler> := map[
    "add_expense" := AddExpense,
    "delete_last_expense" := DeleteLastExpense,
    "get_statistics" := GetStatistics
  ]

  /** The notification each handler answers the press with. */
  function AnswerText(h: CallbackHandler): string {
    match h
    case AddExpense => "Adding an expense..."
    case DeleteLastExpense => "Deleting last expense..."
    case GetStatistics => "Fetching statistics..."
  }

  /** The buttons of `get_main_menu_markup`. */
  const MainMenuButtons := ["add_expense", "delete_last_expense", "get_statistics"]

  /** `callback_query`: the answer of the handler the data names, nothing
      for data outside the table. */
  function CallbackQuery(data: string): (r: Option<string>)
    ensures r.None? <==> data !in CallbackHandlers
    ensures r.Some? ==> r.value == AnswerText(CallbackHandlers[data])
  {
    if data in CallbackHandlers then Some(AnswerText(CallbackHandlers[data])) else None
  }

  /** Every main-menu button reaches its own handler, and the three
      answers differ, so each button is told apart. */
  lemma MenuButtonsAreHandled()
    ensures forall b :: b in MainMenuButtons ==> CallbackQuery(b).Some?
    ensures forall i, j :: 0 <= i < j < |MainMenuButtons| ==>
      CallbackQuery(MainMenuButtons[i]) != CallbackQuery(MainMenuButtons[j])
  {
    var a := AnswerText(AddExpense);
    var d := AnswerText(DeleteLastExpense);
    var g := AnswerText(GetStatistics);
    assert a[0] != d[0] && a[0] != g[0] && d[0] != g[0];
  }
}

=== FILE: query.dfy ===
/** The three query shapes the services build with SQLAlchemy, over a table
    held as a sequence of rows in insertion order: `.filter(p).first()`,
    `.filter(p).count()`, and deleting one row by position. */
module Query {
  import opened Base

  /** `.filter(p).first()`: the position of the first row satisfying `p`. */
  function First<T>(s: seq<T>, p: T -> bool): (r: Option<nat>)
    ensures r.Some? ==> r.value < |s| && p(s[r.value])
    ensures r.Some? ==> forall j :: 0 <= j < r.value ==> !p(s[j])
    ensures r.None? <==> forall j :: 0 <= j < |s| ==> !p(s[j])
  {
    if |s| == 0 then None
    else if p(s[0]) then Some(0)
    else match First(s[1..], p)
      case None => None
      case Some(i) => Some(i + 1)
  }

  /** `.filter(p).count()`. */
  function Count<T>(s: seq<T>, p: T -> bool): (n: nat)
    ensures n <= |s|
  {
    if |s| == 0 then 0 else (if p(s[0]) then 1 else 0) + Count(s[1..], p)
  }

  /** The table after `session.delete` of the row at position `i`: the
      other rows keep their relative order. */
  function RemoveAt<T>(s: seq<T>, i: nat): (r: seq<T>)
    requires i < |s|
    ensures |r| == |s| - 1
    ensures forall j :: 0 <= j < i ==> r[j] == s[j]
    ensures forall j :: i <= j < |r| ==> r[j] == s[j + 1]
    ensures multiset(r) == multiset(s) - multiset{s[i]}
  {
    assert s == s[..i] + [s[i]] + s[i + 1..];
    s[..i] + s[i + 1..]
  }

  lemma {:induction false} CountZero<T>(s: seq<T>, p: T -> bool)
    ensures Count(s, p) == 0 <==> forall j :: 0 <= j < |s| ==> !p(s[j])
  {
    if |s| > 0 {
      CountZero(s[1..], p);
      assert forall j :: 1 <= j < |s| ==> s[j] == s[1..][j - 1];
    }
  }

  lemma {:induction false} CountAppend<T>(s: seq<T>, x: T, p: T -> bool)
    ensures Count(s + [x], p) == Count(s, p) + (if p(x) then 1 else 0)
  {
    if |s| > 0 {
      CountAppend(s[1..], x, p);
      assert (s + [x])[1..] == s[1..] + [x];
    }
  }

  lemma {:induction false} CountUpdate<T>(s: seq<T>, i: nat, x: T, p: T -> bool)
    requires i < |s|
    ensures Count(s[i := x], p) == Count(s, p) - (if p(s[i]) then 1 else 0) + (if p(x) then 1 else 0)
  {
    if i > 0 {
      CountUpdate(s[1..], i - 1, x, p);
      assert s[i := x][1..] == s[1..][i - 1 := x];
    } else {
      assert s[i := x][1..] == s[1..];
    }
  }

  lemma {:induction false} CountConcat<T>(a: seq<T>, b: seq<T>, p: T -> bool)
    ensures Count(a + b, p) == Count(a, p) + Count(b, p)
  {
    if |a| > 0 {
      CountConcat(a[1..], b, p);
      assert (a + b)[1..] == a[1..] + b;
    } else {
      assert a + b == b;
    }
  }

  lemma CountRemove<T>(s: seq<T>, i: nat, p: T -> bool)
    requires i < |s|
    ensures Count(RemoveAt(s, i), p) == Count(s, p) - (if p(s[i]) then 1 else 0)
  {
    var before, after := s[..i], s[i + 1..];
    assert RemoveAt(s, i) == before + after;
    assert s == before + ([s[i]] + after);
    CountConcat(before, after, p);
    CountConcat(before, [s[i]] + after, p);
    CountConcat([s[i]], after, p);
    assert Count([s[i]], p) == (if p(s[i]) then 1 else 0) + Count([s[i]][1..], p);
    assert [s[i]][1..] == [];
  }
}

=== FILE: text.dfy ===
/** The Python `str` operations the bot relies on, over `seq<char>`:
    ASCII lower-casing (the model of SQL `func.lower`), prefix and substring
    tests, `str.split` on one separator character with its inverse
    `str.join`, and `str(int)` with its inverse `int(str)`. */
module Text {
  import opened Base

  /** Lower-cases one ASCII letter; every other character is kept. */
  function LowerChar(c: char): (r: char)
    ensures 'A' <= c <= 'Z' ==> 'a' <= r <= 'z'
    ensures !('A' <= c <= 'Z') ==> r == c
  {
    if 'A' <= c <= 'Z' then (c as int + 32) as char else c
  }

  function Lower(s: string): (r: string)
    ensures |r| == |s|
    ensures forall i :: 0 <= i < |s| ==> r[i] == LowerChar(s[i])
  {
    if |s| == 0 then [] else [LowerChar(s[0])] + Lower(s[1..])
  }

  /** Two names the database treats as the same name (`func.lower(a) == func.lower(b)`). */
  predicate SameName(a: string, b: string) {
    Lower(a) == Lower(b)
  }

  predicate StartsWith(s: string, prefix: string) {
    |prefix| <= |s| && s[..|prefix|] == prefix
  }

  /** Python's `needle in s` on strings. */
  predicate Contains(s: string, needle: string) {
    exists i :: 0 <= i <= |s| - |needle| && OccursAt(s, needle, i)
  }

  predicate OccursAt(s: string, needle: string, i: int)
    requires 0 <= i <= |s| - |needle|
  {
    s[i..i + |needle|] == needle
  }

  /** Python's `sep.join(parts)` for a one-character separator. */
  function Join(sep: char, parts: seq<string>): (r: string)
  {
    if |parts| == 0 then ""
    else if |parts| == 1 then parts[0]
    else parts[0] + [sep] + Join(sep, parts[1..])
  }

  /** Joining two non-empty lists of pieces is joining their joins. */
  lemma {:induction false} JoinConcat(sep: char, a: seq<string>, b: seq<string>)
    requires |a| >= 1 && |b| >= 1
    ensures Join(sep, a + b) == Join(sep, a) + [sep] + Join(sep, b)
  {
    if |a| > 1 {
      JoinConcat(sep, a[1..], b);
      assert (a + b)[1..] == a[1..] + b;
    } else {
      assert (a + b)[1..] == b;
    }
  }

  /** Python's `s.split(sep)` for a one-character separator: never empty,
      and no piece contains the separator. */
  function Split(s: string, sep: char): (r: seq<string>)
    ensures |r| >= 1
    ensures forall i :: 0 <= i < |r| ==> sep !in r[i]
  {
    if |s| == 0 then [""]
    else if s[0] == sep then [""] + Split(s[1..], sep)
    else
      var rest := Split(s[1..], sep);
      [[s[0]] + rest[0]] + rest[1..]
  }

  /** Joining the pieces of a split gives back the original string. */
  lemma {:induction false} JoinSplit(s: string, sep: char)
    ensures Join(sep, Split(s, sep)) == s
  {
    if |s| == 0 {
    } else if s[0] == sep {
      JoinSplit(s[1..], sep);
      assert s == [sep] + s[1..];
    } else {
      JoinSplit(s[1..], sep);
      var rest := Split(s[1..], sep);
      if |rest| == 1 {
        assert Join(sep, Split(s, sep)) == [s[0]] + rest[0];
      } else {
        assert Join(sep, rest) == rest[0] + [sep] + Join(sep, rest[1..]);
        assert Split(s, sep)[1..] == rest[1..];
      }
      assert s == [s[0]] + s[1..];
    }
  }

  /** Splitting a join gives back the pieces, provided no piece contains
      the separator. */
  lemma {:induction false} SplitJoin(parts: seq<string>, sep: char)
    requires |parts| >= 1
    requires forall i :: 0 <= i < |parts| ==> sep !in parts[i]
    ensures Split(Join(sep, parts), sep) == parts
  {
    if |parts| == 1 {
      SplitNoSeparator(parts[0], sep);
    } else {
      SplitJoin(parts[1..], sep);
      SplitPrefix(parts[0], Join(sep, parts[1..]), sep);
      assert parts == [parts[0]] + parts[1..];
    }
  }

  /** A string without the separator splits into itself alone. */
  lemma {:induction false} SplitNoSeparator(s: string, sep: char)
    requires sep !in s
    ensures Split(s, sep) == [s]
  {
    if |s| > 0 {
      SplitNoSeparator(s[1..], sep);
      assert s == [s[0]] + s[1..];
    }
  }

  /** Splitting `head + sep + tail`, where `head` has no separator. */
  lemma {:induction false} SplitPrefix(head: string, tail: string, sep: char)
    requires sep !in head
    ensures Split(head + [sep] + tail, sep) == [head] + Split(tail, sep)
  {
    if |head| == 0 {
      assert head + [sep] + tail == [sep] + tail;
      assert ([sep] + tail)[1..] == tail;
    } else {
      var s := head + [sep] + tail;
      assert s[0] == head[0];
      assert s[1..] == head[1..] + [sep] + tail;
      SplitPrefix(head[1..], tail, sep);
      assert [head[0]] + head[1..] == head;
    }
  }

  predicate IsDigit(c: char) {
    '0' <= c <= '9'
  }

  function DigitChar(d: nat): (c: char)
    requires d < 10
    ensures IsDigit(c)
  {
    ('0' as int + d) as char
  }

  function DigitValue(c: char): (d: nat)
    requires IsDigit(c)
    ensures d < 10
    ensures DigitChar(d) == c
  {
    c as int - '0' as int
  }

  /** Decimal digits of a natural number, most significant first. */
  function NatToString(n: nat): (r: string)
    ensures |r| >= 1
    ensures forall i :: 0 <= i < |r| ==> IsDigit(r[i])
  {
    if n < 10 then [DigitChar(n)] else NatToString(n / 10) + [DigitChar(n % 10)]
  }

  /** Python's `str(i)` for an integer. */
  function IntToString(i: int): (r: string)
    ensures |r| >= 1
    ensures forall k :: 0 <= k < |r| ==> IsDigit(r[k]) || r[k] == '-'
    ensures r[0] == '-' || IsDigit(r[0])
  {
    if i < 0 then "-" + NatToString(-i) else NatToString(i)
  }

  predicate AllDigits(s: string) {
    forall i :: 0 <= i < |s| ==> IsDigit(s[i])
  }

  /** The value of a non-empty run of decimal digits. */
  function DigitsValue(s: string): nat
    requires |s| >= 1 && AllDigits(s)
  {
    if |s| == 1 then DigitValue(s[0])
    else DigitsValue(s[..|s| - 1]) * 10 + DigitValue(s[|s| - 1])
  }

  /** Python's `int(s)` on a sign and decimal digits; `None` stands for
      the `ValueError` it raises on anything else. */
  function ParseInt(s: string): (r: Option<int>)
    ensures r.Some? ==> |s| >= 1
  {
    if |s| >= 2 && s[0] == '-' && AllDigits(s[1..]) then Some(0 - DigitsValue(s[1..]) as int)
    else if |s| >= 2 && s[0] == '+' && AllDigits(s[1..]) then Some(DigitsValue(s[1..]))
    else if |s| >= 1 && AllDigits(s) then Some(DigitsValue(s))
    else None
  }

  lemma {:induction false} DigitsOfNat(n: nat)
    ensures DigitsValue(NatToString(n)) == n
  {
    if n >= 10 {
      DigitsOfNat(n / 10);
      var s := NatToString(n);
      assert s[..|s| - 1] == NatToString(n / 10);
    }
  }

  /** `int(str(i)) == i`: the decimal rendering of an integer parses back. */
  lemma IntStringRoundTrip(i: int)
    ensures ParseInt(IntToString(i)) == Some(i)
  {
    if i < 0 {
      DigitsOfNat(-i);
      assert IntToString(i)[1..] == NatToString(-i);
    } else {
      DigitsOfNat(i);
    }
  }

  /** Distinct integers have distinct decimal renderings. */
  lemma IntToStringInjective(a: int, b: int)
    requires IntToString(a) == IntToString(b)
    ensures a == b
  {
    IntStringRoundTrip(a);
    IntStringRoundTrip(b);
  }
}

=== FILE: users.dfy ===
/** The user service of app/users.py. A user is found by the Telegram id
    the chat platform issues; creating a user whose Telegram id is already
    registered raises, and the `users` table's own constraints (a non-null,
    unique `chat_id`, a unique `email`) reject a row the same way. */
module Users {
  import opened Base
  import opened Query
  import opened Models

  /** `create_user` reaches a bare `raise` with no exception being handled,
      so Python raises a RuntimeError with this text, which the handler
      re-raises. */
  const AlreadyRegisteredError := "No active exception to reraise"

  /** Stands for the IntegrityError the database raises on commit when a
      NOT NULL or UNIQUE constraint of `users` fails. */
  const IntegrityError := "IntegrityError"

  function ByTelegramId(t: int): User -> bool {
    (usr: User) => usr.telegramId == t
  }

  function ById(id: int): User -> bool {
    (usr: User) => usr.id == id
  }

  predicate Registered(users: seq<User>, t: int) {
    exists usr :: usr in users && usr.telegramId == t
  }

  /** A row the new user would collide with on a unique column. */
  predicate ClashesWith(users: seq<User>, email: Option<string>, chatId: int) {
    exists usr :: usr in users && (usr.chatId == chatId || (email.Some? && usr.email == email))
  }

  /** `get_user_id`: the internal id of the row with that Telegram id. */
  function GetUserId(users: seq<User>, t: int): (r: Option<int>)
    ensures r.None? <==> !Registered(users, t)
    ensures r.Some? ==> exists usr :: usr in users && usr.telegramId == t && usr.id == r.value
  {
    match First(users, ByTelegramId(t))
    case None => None
    case Some(i) => Some(users[i].id)
  }

  /** `is_user_registered`. */
  function IsUserRegistered(users: seq<User>, t: int): (r: bool)
    ensures r <==> Registered(users, t)
    ensures r <==> GetUserId(users, t).Some?
  {
    First(users, ByTelegramId(t)).Some?
  }

  /** `create_user`. A registered Telegram id raises before anything is
      written; otherwise exactly one row is appended unless a column
      constraint fails, in which case nothing is written. */
  function CreateUser(db: Db, email: Option<string>, t: int, chatId: Option<int>,
                      firstName: Option<string>, lastName: Option<string>): (r: (Result<User>, Db))
    ensures Registered(db.users, t) ==> r == (Raised(AlreadyRegisteredError), db)
    ensures r.0.Raised? ==> r.1 == db
    ensures r.0.Ok? <==>
      !Registered(db.users, t) && chatId.Some? && !ClashesWith(db.users, email, chatId.value)
    ensures r.0.Ok? ==>
      r.0.value == User(db.nextUserId, firstName, lastName, email, t, chatId.value)
    ensures r.0.Ok? ==>
      r.1 == db.(users := db.users + [r.0.value], nextUserId := db.nextUserId + 1)
    ensures r.0.Ok? ==> Registered(r.1.users, t)
  {
    if IsUserRegistered(db.users, t) then
      (Raised(AlreadyRegisteredError), db)
    else if chatId.None? then
      (Raised(IntegrityError), db)
    else if ClashesWith(db.users, email, chatId.value) then
      (Raised(IntegrityError), db)
    else
      var row := User(db.nextUserId, firstName, lastName, email, t, chatId.value);
      assert row in db.users + [row];
      (Ok(row), db.(users := db.users + [row], nextUserId := db.nextUserId + 1))
  }

  /** `delete_user`: removes the first row with that internal id and
      returns true, or returns false. Categories and expenses of the user
      are left in place. */
  function DeleteUser(db: Db, id: int): (r: (bool, Db))
    ensures r.0 <==> exists usr :: usr in db.users && usr.id == id
    ensures !r.0 ==> r.1 == db
    ensures r.0 ==>
      exists i :: 0 <= i < |db.users| && db.users[i].id == id
        && r.1 == db.(users := RemoveAt(db.users, i))
    ensures r.1.categories == db.categories && r.1.expenses == db.expenses
  {
    match First(db.users, ById(id))
    case None => (false, db)
    case Some(i) => (true, db.(users := RemoveAt(db.users, i)))
  }

  // ---------------------------------------------------------------------
  // Lemmas

  /** Creating a user keeps every key and unique-column constraint. */
  lemma CreateUserPreservesValid(db: Db, email: Option<string>, t: int, chatId: Option<int>,
                                 firstName: Option<string>, lastName: Option<string>)
    requires Valid(db)
    ensures Valid(CreateUser(db, email, t, chatId, firstName, lastName).1)
  {
    var r := CreateUser(db, email, t, chatId, firstName, lastName);
    if r.0.Ok? {
      var users := r.1.users;
      var n := |db.users|;
      forall i, j | 0 <= i < j < |users|
        ensures users[i].id != users[j].id
        ensures users[i].telegramId != users[j].telegramId
        ensures users[i].chatId != users[j].chatId
        ensures users[i].email.Some? ==> users[i].email != users[j].email
      {
        if j == n {
          assert users[i] in db.users;
        }
      }
    }
  }

  /** After a successful creation the Telegram id leads to the new row. */
  lemma CreatedUserIsFound(db: Db, email: Option<string>, t: int, chatId: Option<int>,
                           firstName: Option<string>, lastName: Option<string>)
    requires CreateUser(db, email, t, chatId, firstName, lastName).0.Ok?
    ensures GetUserId(CreateUser(db, email, t, chatId, firstName, lastName).1.users, t) == Some(db.nextUserId)
  {
    var users := CreateUser(db, email, t, chatId, firstName, lastName).1.users;
    var n := |db.users|;
    forall j | 0 <= j < n
      ensures !ByTelegramId(t)(users[j])
    {
      assert users[j] == db.users[j];
      assert db.users[j] in db.users;
    }
    assert First(users, ByTelegramId(t)) == Some(n);
  }

  /** Deleting the user just created gives the table back. */
  lemma CreateThenDeleteUser(db: Db, email: Option<string>, t: int, chatId: Option<int>,
                             firstName: Option<string>, lastName: Option<string>)
    requires UserKeys(db.users, db.nextUserId)
    requires CreateUser(db, email, t, chatId, firstName, lastName).0.Ok?
    ensures DeleteUser(CreateUser(db, email, t, chatId, firstName, lastName).1, db.nextUserId) ==
      (true, db.(nextUserId := db.nextUserId + 1))
  {
    var users := CreateUser(db, email, t, chatId, firstName, lastName).1.users;
    var n := |db.users|;
    assert forall j :: 0 <= j < n ==> users[j] == db.users[j] && !ById(db.nextUserId)(users[j]);
    assert First(users, ById(db.nextUserId)) == Some(n);
    assert RemoveAt(users, n) == db.users;
  }
}
